=== FILE: README.md ===
# UNO server core in Dafny

This project models the two sequential cores of a multiplayer UNO server:

- **The rules engine** (`server/src/game/gameLogic.ts`). It builds and shuffles the deck and draws with a reshuffle of the discard pile. It handles turn rotation, seating players, starting a game, and the moves play, draw and call-UNO. It also removes a player and repairs the turn index.
- **The room registry** (`server/src/utils/game.ts`). This is an in-memory cache of rooms in front of a document store. It allows at most one delayed write per room.

The engine's functions mutate a room object in place. Here each one is a pure function from a `GameState` to a new state. `None` stands for the source returning `null`, that is, a move it rejects. `Math.random` becomes a stream of numbers, `Rng = nat -> nat`, passed as a parameter. An operation reads that stream from position 0 onward.

The registry is a state machine over three maps:

- `cache` is the `rooms` object;
- `pending` holds the state each running save timer will write;
- `store` stands in for the database collection.

The timer firing is an explicit `Fire` event.

Modules:

| file | module | models |
|---|---|---|
| wrappers.dfy | Wrappers | `Option` |
| game_type.dfy | GameType | the `Card`, `Player` and `GameState` records, the lookups and legality tests every rule uses, the state invariants `WellFormed` and `StackOk`, and per-card counting (`Count`, `Owned`) |
| shuffle.dfy | Shuffling | `shuffleDeck` |
| deck.dfy | Deck | `createDeck` |
| draw.dfy | Draw | `drawCards` |
| turns.dfy | Turns | `advanceTurn` |
| seating.dfy | Seating | the seating part of `joinGameRoom`, and `removePlayer` |
| start.dfy | Start | `createGame` |
| moves.dfy | Moves | `playCard`, `drawCard`, `callUno` |
| room_cache.dfy | RoomCache | `getGameState`, `setGameState`, `deleteGameRoom`, the timer event |
| room_service.dfy | RoomService | the exported async operations: fetch through the registry, apply the rule, write back |

Conservation of cards is stated per card. `Count(s, c)` is the number of copies of `c` in `s`. `Owned(g, c)` counts the copies in the deck, the discard pile and every hand.

Where the code departs from the standard UNO rules, or from what a reader might expect of it, the model follows the code:

- **Deck size.** The deck has 112 cards, not the standard 108, because `createDeck` pushes two 0s per colour.
- **Stacking.** While a stack above 1 is pending, a card that is not a +2 or +4 is rejected, not turned into a draw. Only a +2 or +4 sent onto a top card that is neither becomes `drawCard`. Under the stack invariant that redirect never fires (`Moves.NoRedirectUnderStack`). Every operation keeps that invariant, so it never fires in a room the service holds (`RoomService.StackedRoomNeverRedirects`).
- **After a win.** Nothing stops play: `playCard` never reads `winner` (`Moves.PlayIgnoresWinner`).
- **The UNO call.** `calledUno` is always reset after a play, including the winning one. The stored winner therefore shows the reset call.
- **Card matching.** A hand card matches the named card when colour and type agree and the values agree. A hand card with no value matches any value; no card kind is singled out.
- **callUno.** It has no turn check.
- **Removing a player.** If the removed player had the turn, the turn passes to the next seat index whatever the direction.
- **Starting a game.** `createGame` keeps the old `currentPlayer` id while setting the index to 0. It re-deals any room with two or more players and an empty deck, including a started game whose deck ran out. It leaves a room that has a deck untouched, whether or not that room was started.
- **Joining.** A new room is always saved when it is created, whatever room size is passed. Only the seating of a newcomer skips the save when a size is passed: the seat is then added to the cached object in place (`RoomService.JoinWithSizeLeavesUnsaved`).
- **Capacity.** No join is ever rejected for capacity (`RoomService.JoinNeverFull`).

## Model

| member | source | states |
|---|---|---|
| GameType.Playable | server/src/game/gameLogic.ts:157 | a card is playable when it is wild, of the current colour, or of the top card's value |
| GameType.Matches | server/src/game/gameLogic.ts:150 | a hand card answers for the named card when colour and type agree and its value is equal or absent |
| GameType.FindPlayer | server/src/game/gameLogic.ts:262 | the first seat holding the id, or None exactly when no seat holds it |
| GameType.FindCard | server/src/game/gameLogic.ts:149-151 | the first hand card of the same colour and type whose value is equal or absent, or None exactly when no hand card matches |
| GameType.RemoveAt | server/src/game/gameLogic.ts:171 | removing one element keeps the elements before it and shifts the ones after it down by one |
| GameType.RemoveAtCount | server/src/game/gameLogic.ts:171 | the removed card is the only copy that leaves the sequence |
| Shuffling.ShuffleFrom | server/src/game/gameLogic.ts:38-41 | the loop from index i down to 1 permutes the sequence, leaves the positions above i alone, and reads i stream values |
| Shuffling.Shuffle | server/src/game/gameLogic.ts:37-43 | shuffleDeck returns a permutation of its input (same length and multiset), and leaves lengths 0 and 1 unchanged |
| Deck.StandardDeckFacts | server/src/game/gameLogic.ts:5-31 | the pushed list has 112 cards, with two of each coloured number 0-9, skip, reverse and +2, and four wilds and four +4s |
| Deck.StandardWilds | server/src/game/gameLogic.ts:26-31 | the only wild-coloured cards are four wilds and four +4s |
| Deck.CreateDeck | server/src/game/gameLogic.ts:5-34 | createDeck returns 112 cards that are a permutation of the standard list |
| Deck.CreateDeckCounts | server/src/game/gameLogic.ts:5-34 | every deck createDeck returns holds each card exactly as many times as the standard deck does |
| Draw.Refill | server/src/game/gameLogic.ts:49-53 | the refill keeps the number of drawable cards, leaves the deck empty only when nothing is drawable, and keeps the discard top |
| Draw.RefillConserves | server/src/game/gameLogic.ts:49-53 | the refill moves cards between the piles without losing or creating any |
| Draw.DrawOne | server/src/game/gameLogic.ts:48-54 | one pass of the loop draws one card exactly when one is drawable, and keeps the discard top |
| Draw.DrawOneConserves | server/src/game/gameLogic.ts:48-54 | one pass moves its card from the piles to the drawn cards |
| Draw.DrawCards | server/src/game/gameLogic.ts:45-57 | drawCards returns min(count, deck + discard less its top) cards and keeps the discard top in place |
| Draw.DrawCardsConserves | server/src/game/gameLogic.ts:45-57 | the drawn cards plus the piles left hold every card as often as the piles did before |
| Draw.DrawOneFromDeck | server/src/game/gameLogic.ts:54 | with cards in the deck, a draw pops the deck's last card and reads no random number |
| Draw.DrawFromDeck | server/src/game/gameLogic.ts:45-57 | while the deck suffices, drawing k cards pops the deck's top k cards in reverse order and leaves the discard pile alone |
| Turns.AdvanceTurn | server/src/game/gameLogic.ts:59-63 | the index stays in range and currentPlayer is that seat's id; only those two fields change; an empty room is left alone |
| Turns.AdvanceMovesOneSeat | server/src/game/gameLogic.ts:61 | in a well-formed room the turn moves to the next seat clockwise or the previous one counter-clockwise, wrapping |
| Turns.TwoHopsOfTwo | server/src/game/gameLogic.ts:184 | at a table of two, two moves in the same direction return to the same seat |
| Turns.AdvanceKeepsWellFormed | server/src/game/gameLogic.ts:59-63 | advanceTurn keeps the state invariant |
| Seating.NewRoom | server/src/game/gameLogic.ts:67-80 | a new room has no seats, index 0, direction 1, empty piles, red, no stack, is not started, and has maxPlayers 4 when none is given and the given size otherwise |
| Seating.Seat | server/src/game/gameLogic.ts:84-93 | a seated id changes nothing; any other id gets a new seat last with an empty hand and no UNO call |
| Seating.JoinView | server/src/game/gameLogic.ts:86-97 | the reported room is started exactly when the room is started or full, and is the room otherwise |
| Seating.SeatKeepsInvariants | server/src/game/gameLogic.ts:84-93 | seating keeps the state invariant and the stack invariant, and keeps seat ids unique |
| Seating.SeatKeepsCards | server/src/game/gameLogic.ts:88-93 | seating adds no card to the room |
| Seating.RepairedIndex | server/src/game/gameLogic.ts:274-276 | the repaired index names a seat of the smaller table: it shifts down by one when a seat before the turn holder closes, stays when a seat after it closes, and is the seat after the closed one (wrapping to 0) when that one had the turn |
| Seating.RemovePlayer | server/src/game/gameLogic.ts:258-286 | an unknown id changes nothing and the last seat closing empties the room; otherwise the first matching seat is closed; the turn index drops by one when an earlier seat closes and stays when a later one does, so the player with the turn keeps it, and when the closed seat had the turn the next seat (or seat 0) takes it; currentPlayer follows, and a started game left with one player ends with that player as winner |
| Seating.RemoveKeepsWellFormed | server/src/game/gameLogic.ts:258-286 | removePlayer keeps the state invariant and the stack invariant |
| Seating.RemoveKeepsUniqueIds | server/src/game/gameLogic.ts:267 | removePlayer keeps seat ids unique |
| Seating.RemoveDropsHand | server/src/game/gameLogic.ts:267 | the room loses exactly the closed seat's hand |
| Start.DealHands | server/src/game/gameLogic.ts:110-114 | every seat keeps its place, id and name, and gets its own draw and a cleared UNO call |
| Start.DealSizes | server/src/game/gameLogic.ts:110-114 | the deal takes seven cards per seat while they last, and gives each seat seven when enough are left |
| Start.DealConserves | server/src/game/gameLogic.ts:110-114 | the dealt hands plus the piles left hold the cards the piles held |
| Start.LastNonWild | server/src/game/gameLogic.ts:116-120 | the last non-wild card of a deck, or None exactly when every card is wild |
| Start.FlipLoop | server/src/game/gameLogic.ts:116-120 | the first-card loop turns up the last non-wild card and moves the wild cards above it to the bottom in order; it fails only on an empty or all-wild deck |
| Start.FlipStarter | server/src/game/gameLogic.ts:116-121 | the card turned up is not wild, the deck shrinks by exactly that card, and the loop fails exactly on an empty or all-wild deck |
| Start.FlipConserves | server/src/game/gameLogic.ts:116-121 | the card turned up plus the deck left hold the cards of the deck before the flip |
| Start.DealAndFlip | server/src/game/gameLogic.ts:106-133 | a started game keeps seat order, ids and names, has one non-wild card face up that sets the colour, seat 0 to play, direction 1, no stack, started, and keeps roomId, currentPlayer, maxPlayers and winner |
| Start.CreateGame | server/src/game/gameLogic.ts:100-138 | createGame throws exactly for fewer than two players and hands back a room that already has a deck unchanged (AlreadyDealt carries the room); otherwise it deals, and then fails only when the deal leaves no card (DeckExhausted) or only wild cards (OnlyWildsLeft, the loop never ends), and starts the game as DealAndFlip states; `Start.CreateGameFailures` says at which table sizes each failure occurs |
| Start.DealAndFlipEmpties | server/src/game/gameLogic.ts:110-125 | with a 112-card deck, the first-card pop finds no card exactly when there are sixteen players or more |
| Start.CreateGameFailures | server/src/game/gameLogic.ts:100-138 | createGame's pop fails (DeckExhausted) exactly for sixteen players or more on a room with no deck, and its loop can run forever (OnlyWildsLeft) only with exactly fifteen |
| Start.CreateGameSizes | server/src/game/gameLogic.ts:110-121 | a started game has at most 15 seats, seven cards in every hand and 112 - 7n - 1 cards in the deck |
| Start.CreateGameStarts | server/src/game/gameLogic.ts:100-138 | with two to fourteen players and no deck, createGame always starts the game |
| Start.CreateGameExhausts | server/src/game/gameLogic.ts:110-120 | with sixteen or more players the deal empties the deck and the first-card pop fails |
| Start.CreateGameOwnsStandardDeck | server/src/game/gameLogic.ts:100-138 | a started game holds, over deck, discard pile and hands, each card exactly as often as the standard deck |
| Start.CreateGameWellFormed | server/src/game/gameLogic.ts:123-133 | a started game satisfies the state invariant and, having no stack, the stack invariant |
| Moves.Mover | server/src/game/gameLogic.ts:143-147 | a move is accepted exactly when the game has started, the id holds a seat, and the seat at the turn index holds it; the seat acted on is the first with the id |
| Moves.MoverHasTheTurn | server/src/game/gameLogic.ts:145-147 | with unique ids the seat acted on is the seat whose turn it is |
| Moves.GiveCards | server/src/game/gameLogic.ts:221-222 | drawing into a hand appends min(count, drawable) cards to that hand only and keeps the discard top |
| Moves.GiveCardsConserves | server/src/game/gameLogic.ts:221-222 | drawing into a hand moves cards from the piles to the hand only |
| Moves.HasPlayable | server/src/game/gameLogic.ts:226-230 | some card of the hand is wild, of the current colour, or of the top card's value; after a single draw, drawCard keeps the turn exactly when this holds of the grown hand |
| Moves.DrawCard | server/src/game/gameLogic.ts:209-243 | drawCard has play's turn preconditions; it gives the drawer the whole stack or one card, passes the turn and clears the stack after a stack, and after a single draw passes the turn only when no card of the grown hand is playable; when the turn passes, currentPlayer is the new seat's id |
| Moves.DrawCardKeepsWellFormed | server/src/game/gameLogic.ts:209-243 | drawCard keeps the state invariant |
| Moves.DrawCardConserves | server/src/game/gameLogic.ts:221-222 | drawCard neither creates nor loses a card |
| Moves.DrawCardKeepsStack | server/src/game/gameLogic.ts:232-235 | drawCard leaves no stack, so it keeps the stack invariant |
| Moves.Redirects | server/src/game/gameLogic.ts:160-161 | a +2 or +4 sent onto a top card that is neither of the two, while a stack above 1 is pending, becomes a draw |
| Moves.Legal | server/src/game/gameLogic.ts:157-169 | a card that is not redirected may be played when it is playable and, under a stack above 1, is a +2 or +4 |
| Moves.StackBonus | server/src/game/gameLogic.ts:186-191 | a kind grows the stack exactly when it is +2 or +4 |
| Moves.Discard | server/src/game/gameLogic.ts:171-176 | the hand card leaves the hand for the discard top; the colour is the chosen one for a wild card when one is sent, and otherwise the card's own (wild when none is sent) |
| Moves.Effect | server/src/game/gameLogic.ts:178-194 | skip passes the turn once more; reverse turns the direction round and passes once more at a table of two; +2 and +4 grow the stack by 2 and 4; nothing else changes |
| Moves.Penalty | server/src/game/gameLogic.ts:197 | a player left with one card who has not called UNO draws up to two; anyone else is untouched |
| Moves.Settle | server/src/game/gameLogic.ts:200-202 | the UNO call is cleared, an empty hand makes its seat the winner (with the cleared call), and otherwise the winner stays |
| Moves.Play | server/src/game/gameLogic.ts:171-206 | an accepted play keeps the state invariant |
| Moves.PlayCard | server/src/game/gameLogic.ts:140-207 | playCard rejects a player who may not move or has no matching card; a +2/+4 onto a top that is neither, under a stack above 1, returns drawCard's result; otherwise an illegal card is rejected and a legal one is played |
| Moves.PlaySeats | server/src/game/gameLogic.ts:171-202 | a play changes only the player's seat, and there only the hand and the cleared UNO call |
| Moves.PlayHand | server/src/game/gameLogic.ts:171-197 | the played card leaves the hand, and a hand left with one card without an UNO call gets up to two more |
| Moves.PlayTable | server/src/game/gameLogic.ts:171-194 | the played card is the new top and sets the colour; reverse flips the direction; +2/+4 grow the stack; the room's id, size and started flag stay |
| Moves.PlayTurn | server/src/game/gameLogic.ts:178-203 | a play moves the turn one seat in the new direction, or two after a skip or after a reverse at a table of two, and currentPlayer follows |
| Moves.SkipAndReverseOfTwo | server/src/game/gameLogic.ts:179-184 | at a table of two, a skip or a reverse gives the turn back to its player |
| Moves.PlayWinner | server/src/game/gameLogic.ts:200 | an empty hand after the play makes its seat the winner; otherwise the winner is unchanged |
| Moves.PlayConservesCards | server/src/game/gameLogic.ts:171-197 | a play only moves cards: the played card to the discard pile, penalty cards from the piles to the hand |
| Moves.NoRedirectUnderStack | server/src/game/gameLogic.ts:160-165 | when a pending stack sits on a +2 or +4, the redirect to drawCard never fires |
| Moves.PlayCardKeepsWellFormed | server/src/game/gameLogic.ts:140-207 | playCard keeps the state invariant |
| Moves.PlayCardConserves | server/src/game/gameLogic.ts:140-207 | an accepted playCard neither creates nor loses a card |
| Moves.PlayCardKeepsStack | server/src/game/gameLogic.ts:167-191 | playCard keeps the stack invariant: a pending stack is at least 2 and lies on a +2 or +4 |
| Moves.PlayKeepsStack | server/src/game/gameLogic.ts:169-191 | a play answering a stack above 1 with a +2 or +4 keeps the stack invariant |
| Moves.PlayIgnoresWinner | server/src/game/gameLogic.ts:140-169 | whether a play is accepted does not depend on the winner field |
| Moves.CallUno | server/src/game/gameLogic.ts:245-256 | callUno is accepted exactly for a started game and a seated id, whoever's turn it is, and sets only the first such seat's call |
| Moves.CallUnoKeeps | server/src/game/gameLogic.ts:253 | callUno keeps the state invariant, the stack invariant and every card |
| RoomCache.Get | server/src/utils/game.ts:7-16 | a cached room is returned without reading the store; on a miss a stored room is loaded into the cache and returned; a room in neither gives None |
| RoomCache.Set | server/src/utils/game.ts:18-27 | the cache holds the new state at once, the pending write for the room is replaced by one of that state, and other rooms are untouched |
| RoomCache.Fire | server/src/utils/game.ts:23-26 | a firing timer writes the state captured at set time to the store and is cleared; without a timer nothing changes |
| RoomCache.Delete | server/src/utils/game.ts:29-33 | the room leaves the cache, the pending writes and the store; other rooms are untouched |
| RoomCache.UpdateInPlace | server/src/game/gameLogic.ts:88-93 | changing the cached object in place shows in the cache and in a pending write of that object, never in the store |
| RoomCache.ReadYourWrites | server/src/utils/game.ts:7-19 | a get after a set returns the state just set |
| RoomCache.GetTwice | server/src/utils/game.ts:8-13 | a second get returns the same room and changes nothing |
| RoomCache.SetCoalesces | server/src/utils/game.ts:21-23 | two sets in a row leave the registry as the second alone would |
| RoomCache.SetAll | server/src/utils/game.ts:18-27 | a burst of sets never writes the store |
| RoomCache.SetAllIsLastSet | server/src/utils/game.ts:21-23 | a burst of sets is one set of the last state |
| RoomCache.BurstWritesLast | server/src/utils/game.ts:21-26 | after a burst of sets and the timer, the store holds the last state and nothing is pending |
| RoomCache.DeleteThenGet | server/src/utils/game.ts:29-33 | after a delete a get gives None, even once a timer has fired |
| RoomCache.OpsKeepCoherent | server/src/utils/game.ts:7-33 | every operation keeps each pending write equal to the cached room |
| RoomCache.OpsKeepSaved | server/src/utils/game.ts:7-33 | get, set, fire and delete keep every cached room pending or equal to the stored record |
| RoomCache.InPlaceChangeUnsaved | server/src/game/gameLogic.ts:88-95 | an in-place change to a room with no pending write leaves cache and store disagreeing, with no timer to reconcile them |
| RoomService.Commit | server/src/game/gameLogic.ts:204 | a rejected move leaves the registry alone; after an accepted one a fetch returns the new state and a write of it is pending; the store and every other room are untouched |
| RoomService.Open | server/src/game/gameLogic.ts:66-82 | the fetched room, or a new room saved at once; either way the cache holds it |
| RoomService.Enter | server/src/game/gameLogic.ts:84-97 | a seated player changes nothing; otherwise the seated room is set when no size is passed (or 0), and changed in place when a size is passed |
| RoomService.Join | server/src/game/gameLogic.ts:65-98 | joinGameRoom leaves the player seated in the cached room, reports JoinView of it, never writes the store, and leaves a write pending for a new room or a newcomer when no size is passed |
| RoomService.JoinTwice | server/src/game/gameLogic.ts:84-86 | joining again with the same id changes neither the room nor the report |
| RoomService.JoinNeverFull | server/src/game/gameLogic.ts:88-93 | an unseated player always gets the next seat, however full the room |
| RoomService.JoinKeepsSound | server/src/game/gameLogic.ts:65-98 | joining keeps the registry sound, and keeps it saved when no size is passed |
| RoomService.EnterKeepsSound | server/src/game/gameLogic.ts:84-97 | the seating step keeps the registry sound, and keeps it saved when no size is passed |
| RoomService.OpenKeepsSound | server/src/game/gameLogic.ts:66-82 | fetching or creating the room keeps the registry sound and saved and yields a well-formed room |
| RoomService.JoinWithSizeLeavesUnsaved | server/src/game/gameLogic.ts:95 | a newcomer joining a saved room with a size passed leaves the registry unsaved |
| RoomService.StartRoom | server/src/game/gameLogic.ts:100-138 | a missing room gives None; otherwise createGame's outcome, with a started game set and anything else left unsaved |
| RoomService.StartRoomKeepsSound | server/src/game/gameLogic.ts:100-138 | starting a game keeps the registry sound and saved |
| RoomService.PlayMove | server/src/game/gameLogic.ts:140-207 | a missing room or rejected play gives None and saves nothing; an accepted play is set |
| RoomService.DrawMove | server/src/game/gameLogic.ts:209-243 | a missing room or rejected draw gives None and saves nothing; an accepted draw is set |
| RoomService.UnoMove | server/src/game/gameLogic.ts:245-256 | a missing room or rejected call gives None and saves nothing; an accepted call is set |
| RoomService.Remove | server/src/game/gameLogic.ts:258-286 | a missing room or player changes nothing beyond the fetch (which may load the stored room into the cache), the last player leaving deletes the room, and otherwise the smaller room is set |
| RoomService.LastLeaverDeletes | server/src/game/gameLogic.ts:269-271 | once the last player leaves, every later fetch of the room gives None |
| RoomService.StackedRoomNeverRedirects | server/src/game/gameLogic.ts:160-165 | in any room fetched from a healthy registry, no card sent while a stack is pending is redirected to drawCard |
| RoomService.WritesKeepHealthy | server/src/utils/game.ts:18-33 | writing a valid room, deleting one, or a save timer firing keeps every room in the registry valid |
| RoomService.FireKeepsSound | server/src/utils/game.ts:23-26 | a save timer firing keeps the registry sound and saved |
| RoomService.CommitKeepsSound | server/src/utils/game.ts:18-27 | committing a valid result keeps the registry sound and saved |
| RoomService.GetKeepsSound | server/src/utils/game.ts:7-16 | a fetch keeps the registry sound and saved |
| RoomService.PlayMoveKeepsSound | server/src/game/gameLogic.ts:140-207 | playCard keeps the registry sound and saved |
| RoomService.DrawMoveKeepsSound | server/src/game/gameLogic.ts:209-243 | drawCard keeps the registry sound and saved |
| RoomService.UnoMoveKeepsSound | server/src/game/gameLogic.ts:245-256 | callUno keeps the registry sound and saved |
| RoomService.RemoveKeepsSound | server/src/game/gameLogic.ts:258-286 | removePlayer keeps the registry sound and saved |

"Sound" means two things. Every room in the three maps is `Valid`: it satisfies `WellFormed` and the stack invariant `StackOk`, and every pending write equals the cached room (`Coherent`). "Saved" means every cached room is either pending or equal to its stored record.

## Left out

- **Time and I/O.** The 5-second delay, the database calls and the socket layer are not modelled. The timer firing is the explicit `RoomCache.Fire` event, and the store is a map.
- **Concurrency.** Async interleavings between handlers are not modelled; each operation runs to completion before the next. This includes a timer callback already running when the room is deleted. `await`s that the callers omit are also left out.
- **The database schema.** The stored document is modelled as the whole `GameState`. The schema's own field list, and what it drops, is not part of this model.
- **Randomness.** Randomness is a parameter. The model does not prove the shuffle uniform; it proves only that the shuffle permutes.
- **Numbers.** JavaScript numbers are modelled as unbounded integers. Floating-point effects on `Math.floor(Math.random() * (i + 1))` are not modelled.
- **Object aliasing.** In-place mutation through shared references becomes returned states. The model has one exception, `RoomCache.UpdateInPlace`, for the one write that skips `setGameState`. The stored winner is the seat as it was at the end of the play. Later in-place changes that would show through the shared `Player` object are not modelled.
- **How createGame fails.** createGame throws for a missing room and for fewer than two players. An empty deck on the first pop throws a TypeError. An all-wild deck loops forever. These are the results `None`, `TooFewPlayers`, `DeckExhausted` and `OnlyWildsLeft`.
- Start.CreateGameStarts: covers up to fourteen players only. With exactly fifteen the seven cards left may all be wild, so whether the game starts depends on the shuffle; `Start.CreateGameFailures` states that fifteen is the only size where the loop can fail, and that sixteen or more always exhaust the deck.
- **The state invariant.** `WellFormed` says the index names a seat, the direction is ±1, and a started game has a card face up. The index clause guards `players[currentPlayerIndex].id`, which throws outside it. The direction clause holds because only reverse changes the direction, and it negates it; outside it the turn would still move, by other steps. With no card face up, drawCard throws after drawing, and playCard throws for a +2 or +4 and rejects any other card. `PlayCard`, `DrawCard` and the service's moves require the invariant; every operation keeps all three clauses (the `Keeps` lemmas), so the requirement excludes only states no sequence of operations reaches from a new room. `RoomService.Healthy` assumes every stored record satisfies it and the stack invariant; every write the model makes keeps both.
- Turns.AdvanceTurn: requires a non-negative index sum. Below zero, JavaScript's `%` gives a negative index and the source reads an undefined seat. That case never arises under `WellFormed`.
- **Client and transport.** The client, the socket wiring, the models, the database configuration and the HTTP bootstrap are not part of this model.

=== FILE: deck.dfy ===
/**
 * `createDeck` of server/src/game/gameLogic.ts: the fixed card list it
 * builds, counted card by card, and the shuffled deck it returns.
 */
module Deck {
  import opened GameType
  import opened Shuffling

  /* ---------------------------------------------------------------------
     The card list createDeck pushes, before shuffling
     --------------------------------------------------------------------- */

  const WildCard := Card(Wild, WildKind, Tag("wild"))
  const WildDrawFour := Card(Wild, DrawFour, Tag("+4"))

  function Pair(c: Card): seq<Card> {
    [c, c]
  }

  /** Two copies of each number card of `color` from `from` up to 9 */
  function NumberPairs(color: Color, from: nat): seq<Card>
    decreases 10 - from
  {
    if from > 9 then []
    else Pair(Card(color, Number, Num(from))) + NumberPairs(color, from + 1)
  }

  /** The 26 cards of one colour: numbers 0-9 twice, then two each of skip, reverse and +2 */
  function ColorBlock(color: Color): seq<Card> {
    NumberPairs(color, 0) +
    Pair(Card(color, Skip, Tag("skip"))) +
    Pair(Card(color, Reverse, Tag("reverse"))) +
    Pair(Card(color, DrawTwo, Tag("+2")))
  }

  /** One round of the wild loop: a wild, then a +4 */
  function WildRound(): seq<Card> {
    [WildCard, WildDrawFour]
  }

  /** `k` rounds of pushing one wild and one +4 */
  function WildPairs(k: nat): seq<Card> {
    if k == 0 then [] else WildRound() + WildPairs(k - 1)
  }

  /** The list createDeck pushes for the four colours `c1`..`c4` and `k` wild rounds */
  function DeckFrom(c1: Color, c2: Color, c3: Color, c4: Color, k: nat): seq<Card> {
    ColorBlock(c1) + ColorBlock(c2) + ColorBlock(c3) + ColorBlock(c4) + WildPairs(k)
  }

  /** The unshuffled list of createDeck, in push order. This is the model of
      the list; StandardDeck below is the same list in the indexed form the
      game proofs use. */
  function PushOrder(): (r: seq<Card>)
    ensures |r| == 112
  {
    DeckFromFacts(Red, Green, Blue, Yellow, 4, WildCard);
    DeckFrom(Red, Green, Blue, Yellow, 4)
  }

  /** The same 112 cards, given position by position. Proofs about a game
      see only this indexed form, so the solver never spells out the whole
      list; StandardDeckIsList connects the two. */
  function StandardDeck(): (r: seq<Card>)
    ensures |r| == 112
  {
    seq(112, i requires 0 <= i < 112 => PushOrder()[i])
  }

  lemma StandardDeckIsList()
    ensures StandardDeck() == PushOrder()
  {
  }

  /** How many copies of each card the game owns, written card by card:
      two of each coloured number 0-9, skip, reverse and +2, and four each
      of the (wild-coloured) wild and +4. */
  function ExpectedCount(c: Card): nat {
    if c.color == Wild then
      (if c == WildCard || c == WildDrawFour then 4 else 0)
    else match c.kind
      case Number => if c.value.Num? && 0 <= c.value.n <= 9 then 2 else 0
      case Skip => if c.value == Tag("skip") then 2 else 0
      case Reverse => if c.value == Tag("reverse") then 2 else 0
      case DrawTwo => if c.value == Tag("+2") then 2 else 0
      case _ => 0
  }

  lemma PairFacts(x: Card, c: Card)
    ensures |Pair(x)| == 2
    ensures Count(Pair(x), c) == if c == x then 2 else 0
  {
    var p := Pair(x);
    assert p[1..] == [x];
    assert [x][1..] == [];
    assert Count([x], c) == (if x == c then 1 else 0) + Count([x][1..], c);
  }

  lemma {:induction false} NumberPairsFacts(color: Color, from: nat, c: Card)
    requires from <= 10
    ensures |NumberPairs(color, from)| == 2 * (10 - from)
    ensures Count(NumberPairs(color, from), c) ==
      if c.color == color && c.kind == Number && c.value.Num? && from <= c.value.n <= 9 then 2 else 0
    decreases 10 - from
  {
    if from <= 9 {
      var x := Card(color, Number, Num(from));
      NumberPairsFacts(color, from + 1, c);
      PairFacts(x, c);
      CountConcat(Pair(x), NumberPairs(color, from + 1), c);
    }
  }

  /** The copies of `c` one colour's block should hold */
  function ColorShare(color: Color, c: Card): nat {
    if c.color == color then ExpectedCount(c) else 0
  }

  /** The per-colour count, assembled from the counts of its four parts */
  lemma ColorCountParts(color: Color, c: Card, a: nat, b: nat, d: nat, e: nat)
    requires color != Wild
    requires a == if c.color == color && c.kind == Number && c.value.Num? && 0 <= c.value.n <= 9 then 2 else 0
    requires b == if c == Card(color, Skip, Tag("skip")) then 2 else 0
    requires d == if c == Card(color, Reverse, Tag("reverse")) then 2 else 0
    requires e == if c == Card(color, DrawTwo, Tag("+2")) then 2 else 0
    ensures a + b + d + e == ColorShare(color, c)
  {
  }

  lemma ColorBlockFacts(color: Color, c: Card)
    requires color != Wild
    ensures |ColorBlock(color)| == 26
    ensures Count(ColorBlock(color), c) == ColorShare(color, c)
  {
    var sk, rv, dt := Card(color, Skip, Tag("skip")), Card(color, Reverse, Tag("reverse")), Card(color, DrawTwo, Tag("+2"));
    var np := NumberPairs(color, 0);
    NumberPairsFacts(color, 0, c);
    PairFacts(sk, c);
    PairFacts(rv, c);
    PairFacts(dt, c);
    ColorCountParts(color, c, Count(np, c), Count(Pair(sk), c), Count(Pair(rv), c), Count(Pair(dt), c));
    CountConcat(np, Pair(sk), c);
    CountConcat(np + Pair(sk), Pair(rv), c);
    CountConcat(np + Pair(sk) + Pair(rv), Pair(dt), c);
  }

  /** The copies of `c` the wild rounds should hold */
  function WildShare(k: nat, c: Card): nat {
    if c == WildCard || c == WildDrawFour then k else 0
  }

  lemma {:induction false} WildPairsFacts(k: nat, c: Card)
    ensures |WildPairs(k)| == 2 * k
    ensures Count(WildPairs(k), c) == WildShare(k, c)
  {
    if k > 0 {
      WildPairsFacts(k - 1, c);
      CountConcat(WildRound(), WildPairs(k - 1), c);
      assert WildRound()[1..] == [WildDrawFour];
      assert [WildDrawFour][1..] == [];
    }
  }

  /** The whole-deck count, assembled from the counts of its five blocks */
  lemma DeckCountParts(c: Card, k: nat)
    ensures ColorShare(Red, c) + ColorShare(Green, c) + ColorShare(Blue, c) + ColorShare(Yellow, c) + WildShare(k, c)
      == (if c.color == Wild then WildShare(k, c) else ExpectedCount(c))
  {
  }

  lemma DeckFromFacts(c1: Color, c2: Color, c3: Color, c4: Color, k: nat, c: Card)
    requires c1 == Red && c2 == Green && c3 == Blue && c4 == Yellow
    ensures |DeckFrom(c1, c2, c3, c4, k)| == 104 + 2 * k
    ensures Count(DeckFrom(c1, c2, c3, c4, k), c) == (if c.color == Wild then WildShare(k, c) else ExpectedCount(c))
  {
    var r, g, b, y, w := ColorBlock(c1), ColorBlock(c2), ColorBlock(c3), ColorBlock(c4), WildPairs(k);
    ColorBlockFacts(c1, c);
    ColorBlockFacts(c2, c);
    ColorBlockFacts(c3, c);
    ColorBlockFacts(c4, c);
    WildPairsFacts(k, c);
    DeckCountParts(c, k);
    CountConcat(r, g, c);
    CountConcat(r + g, b, c);
    CountConcat(r + g + b, y, c);
    CountConcat(r + g + b + y, w, c);
  }

  /** The deck createDeck builds has 112 cards (two 0s per colour, so not
      108), and holds each card exactly ExpectedCount times. */
  lemma StandardDeckFacts(c: Card)
    ensures |StandardDeck()| == 112
    ensures Count(StandardDeck(), c) == ExpectedCount(c)
  {
    StandardDeckIsList();
    PushOrderCount(c);
  }

  lemma PushOrderCount(c: Card)
    ensures Count(PushOrder(), c) == ExpectedCount(c)
  {
    DeckFromFacts(Red, Green, Blue, Yellow, 4, c);
  }

  /** The only wild-coloured cards in the game are 4 wilds and 4 +4s */
  lemma StandardWilds(c: Card)
    requires c.color == Wild
    ensures Count(StandardDeck(), c) == (if c == WildCard || c == WildDrawFour then 4 else 0)
  {
    StandardDeckFacts(c);
  }

  /* ---------------------------------------------------------------------
     createDeck
     --------------------------------------------------------------------- */

  /** createDeck: the standard 112-card list, shuffled */
  function CreateDeck(rng: Rng, pos: nat): (r: (seq<Card>, nat))
    ensures |r.0| == 112
    ensures multiset(r.0) == multiset(StandardDeck())
  {
    StandardDeckFacts(WildCard);
    Shuffle(StandardDeck(), rng, pos)
  }

  /** Every deck createDeck returns holds each card ExpectedCount times */
  lemma CreateDeckCounts(rng: Rng, pos: nat, c: Card)
    ensures Count(CreateDeck(rng, pos).0, c) == ExpectedCount(c)
  {
    StandardDeckFacts(c);
    PermutationCount(CreateDeck(rng, pos).0, StandardDeck(), c);
  }
}

=== FILE: draw.dfy ===
/**
 * `drawCards` of server/src/game/gameLogic.ts: pop cards off the end of the
 * deck; whenever the deck is empty, the discard pile less its top card is
 * shuffled into a new deck first, and a draw stops short only when nothing
 * is left to draw.
 */
module Draw {
  import opened GameType
  import opened Shuffling

  /** The two piles a draw works on */
  datatype Piles = Piles(deck: seq<Card>, discard: seq<Card>)

  /** Copies of `c` in the two piles */
  function PileCount(p: Piles, c: Card): nat {
    Count(p.deck, c) + Count(p.discard, c)
  }

  /** Cards a draw can still reach: the deck plus the discard pile below its top */
  function Avail(p: Piles): nat {
    |p.deck| + (if |p.discard| > 0 then |p.discard| - 1 else 0)
  }

  /** The discard pile after drawing: untouched, or cut down to its top card */
  predicate DiscardKept(before: seq<Card>, after: seq<Card>) {
    after == before || (|before| > 0 && after == [Last(before)])
  }


  /** The refill at the start of each draw: an empty deck receives the
      discard pile less its top card, shuffled; the top stays face up. */
  function Refill(p: Piles, rng: Rng, pos: nat): (r: (Piles, nat))
    ensures Avail(r.0) == Avail(p)
    ensures |r.0.deck| == 0 ==> Avail(p) == 0
    ensures DiscardKept(p.discard, r.0.discard)
  {
    if |p.deck| > 0 then (p, pos)
    else if |p.discard| == 0 then (p, pos)
    else
      var top := Last(p.discard);
      var rest := p.discard[..|p.discard| - 1];
      assert p.discard == rest + [top];
      var sh := Shuffle(rest, rng, pos);
      (Piles(sh.0, [top]), sh.1)
  }

  /** What a draw returns: the cards drawn, in draw order, the piles left
      behind, and the next unread position of the random stream */
  datatype Drawn = Drawn(cards: seq<Card>, piles: Piles, pos: nat)

  /** One iteration of drawCards' loop: refill if needed, then pop one card if any */
  function DrawOne(p: Piles, rng: Rng, pos: nat): (r: Drawn)
    ensures |r.cards| == Min(1, Avail(p))
    ensures Avail(r.piles) == Avail(p) - |r.cards|
    ensures DiscardKept(p.discard, r.piles.discard)
  {
    var rf := Refill(p, rng, pos);
    var q := rf.0;
    if |q.deck| == 0 then Drawn([], q, rf.1)
    else
      var d := q.deck[..|q.deck| - 1];
      assert q.deck == d + [Last(q.deck)];
      Drawn([Last(q.deck)], Piles(d, q.discard), rf.1)
  }

  /** drawCards(game, count): a short draw only when nothing is left, and
      the face-up card kept; DrawCardsConserves states that no card is
      created or lost. */
  function DrawCards(p: Piles, count: nat, rng: Rng, pos: nat): (r: Drawn)
    ensures |r.cards| == Min(count, Avail(p))
    ensures Avail(r.piles) == Avail(p) - |r.cards|
    ensures DiscardKept(p.discard, r.piles.discard)
    decreases count
  {
    if count == 0 then Drawn([], p, pos)
    else
      var one := DrawOne(p, rng, pos);
      var rest := DrawCards(one.piles, count - 1, rng, one.pos);
      Drawn(one.cards + rest.cards, rest.piles, rest.pos)
  }

  /** The refill moves cards between the piles and loses none */
  lemma RefillConserves(p: Piles, rng: Rng, pos: nat, c: Card)
    ensures PileCount(Refill(p, rng, pos).0, c) == PileCount(p, c)
  {
    if |p.deck| == 0 && |p.discard| > 0 {
      var rest := p.discard[..|p.discard| - 1];
      var top := Last(p.discard);
      assert p.discard == rest + [top];
      CountConcat(rest, [top], c);
      PermutationCount(Shuffle(rest, rng, pos).0, rest, c);
    }
  }

  /** One draw only moves a card from the piles into the drawn cards */
  lemma DrawOneConserves(p: Piles, rng: Rng, pos: nat, c: Card)
    ensures var r := DrawOne(p, rng, pos); PileCount(r.piles, c) + Count(r.cards, c) == PileCount(p, c)
  {
    RefillConserves(p, rng, pos, c);
    var q := Refill(p, rng, pos).0;
    if |q.deck| > 0 {
      var r := DrawOne(p, rng, pos);
      assert q.deck == r.piles.deck + r.cards;
      CountConcat(r.piles.deck, r.cards, c);
    }
  }

  /** Conservation: the cards drawn plus the piles left hold exactly the
      copies of every card the piles held before. */
  lemma {:induction false} DrawCardsConserves(p: Piles, count: nat, rng: Rng, pos: nat, c: Card)
    ensures var r := DrawCards(p, count, rng, pos); PileCount(r.piles, c) + Count(r.cards, c) == PileCount(p, c)
    decreases count
  {
    if count > 0 {
      var one := DrawOne(p, rng, pos);
      var rest := DrawCards(one.piles, count - 1, rng, one.pos);
      var r := DrawCards(p, count, rng, pos);
      assert PileCount(one.piles, c) + Count(one.cards, c) == PileCount(p, c) by {
        DrawOneConserves(p, rng, pos, c);
      }
      assert PileCount(rest.piles, c) + Count(rest.cards, c) == PileCount(one.piles, c) by {
        DrawCardsConserves(one.piles, count - 1, rng, one.pos, c);
      }
      assert r.piles == rest.piles && Count(r.cards, c) == Count(one.cards, c) + Count(rest.cards, c) by {
        DrawCardsStep(p, count, rng, pos, c);
      }
    }
  }


  /** A draw of `count` cards is one draw followed by the others */
  lemma DrawCardsStep(p: Piles, count: nat, rng: Rng, pos: nat, c: Card)
    requires count > 0
    ensures var one := DrawOne(p, rng, pos);
      var rest := DrawCards(one.piles, count - 1, rng, one.pos);
      var r := DrawCards(p, count, rng, pos);
      && r.piles == rest.piles
      && Count(r.cards, c) == Count(one.cards, c) + Count(rest.cards, c)
  {
    var one := DrawOne(p, rng, pos);
    var rest := DrawCards(one.piles, count - 1, rng, one.pos);
    CountConcat(one.cards, rest.cards, c);
  }


  /** With cards in the deck, one draw pops the deck's last card and does not
      touch the random stream. */
  lemma DrawOneFromDeck(p: Piles, rng: Rng, pos: nat)
    requires |p.deck| > 0
    ensures DrawOne(p, rng, pos) == Drawn([Last(p.deck)], Piles(p.deck[..|p.deck| - 1], p.discard), pos)
  {
  }

  /** `s` back to front */
  function Reversed<T>(s: seq<T>): (r: seq<T>)
    ensures |r| == |s|
    ensures forall i :: 0 <= i < |s| ==> r[i] == s[|s| - 1 - i]
  {
    if |s| == 0 then [] else [Last(s)] + Reversed(s[..|s| - 1])
  }

  /** While the deck holds enough cards, drawCards pops exactly the top
      `|taken|` deck cards, last card first, and leaves the discard pile alone. */
  lemma {:induction false} DrawFromDeck(rest: seq<Card>, taken: seq<Card>, discard: seq<Card>, rng: Rng, pos: nat)
    ensures DrawCards(Piles(rest + taken, discard), |taken|, rng, pos).piles == Piles(rest, discard)
    ensures DrawCards(Piles(rest + taken, discard), |taken|, rng, pos).cards == Reversed(taken)
    decreases |taken|
  {
    if |taken| > 0 {
      var p := Piles(rest + taken, discard);
      var t := taken[..|taken| - 1];
      assert (rest + taken)[..|rest + taken| - 1] == rest + t;
      DrawOneFromDeck(p, rng, pos);
      DrawFromDeck(rest, t, discard, rng, pos);
    }
  }
}

=== FILE: game_type.dfy ===
/**
 * The data model of the UNO server (server/src/types/gameType.ts): cards,
 * seated players and the per-room game state, plus the small lookups every
 * rule needs (first seat with an id, first matching hand card, top of the
 * discard pile) and the state invariant the rules rely on.
 */
module GameType {
  import opened Wrappers

  datatype Color = Red | Green | Blue | Yellow | Wild

  /** The card's `type` field: "number", "skip", "reverse", "+2", "wild", "+4" */
  datatype Kind = Number | Skip | Reverse | DrawTwo | WildKind | DrawFour

  /** A card's optional `value`: a number, a string, or absent (undefined) */
  datatype Value = Num(n: int) | Tag(s: string) | NoValue

  datatype Card = Card(color: Color, kind: Kind, value: Value)

  datatype Player = Player(id: string, name: string, hand: seq<Card>, calledUno: bool)

  datatype GameState = GameState(
    roomId: string,
    players: seq<Player>,
    currentPlayerIndex: int,
    currentPlayer: string,
    direction: int,
    deck: seq<Card>,          // a stack: cards are drawn from the end
    discardPile: seq<Card>,   // a stack: the last card is the top
    currentColor: Color,
    drawStack: nat,
    maxPlayers: int,
    winner: Option<Player>,
    started: bool)

  /** A stream of random numbers standing in for `Math.random`; one
      operation reads it from position 0 onwards. */
  type Rng = nat -> nat

  /** +2 and +4, the cards that add to the draw stack */
  predicate IsStacker(k: Kind) {
    k == DrawTwo || k == DrawFour
  }

  function Last<T>(s: seq<T>): T
    requires |s| > 0
  {
    s[|s| - 1]
  }

  /** The legality test shared by playCard and drawCard: a wild card, a card
      of the current colour, or a card whose value equals the top's value. */
  predicate Playable(c: Card, currentColor: Color, top: Card) {
    c.color == Wild || c.color == currentColor || c.value == top.value
  }

  /** How a hand card answers for the card a client names: same colour and
      type, and the same value unless the hand card has none. */
  predicate Matches(handCard: Card, named: Card) {
    handCard.color == named.color && handCard.kind == named.kind &&
    (handCard.value == named.value || handCard.value == NoValue)
  }

  predicate Seated(players: seq<Player>, id: string) {
    exists j :: 0 <= j < |players| && players[j].id == id
  }

  /** The first seat holding `id`, if any */
  function FindPlayer(players: seq<Player>, id: string): (r: Option<nat>)
    ensures r.Some? ==> r.value < |players| && players[r.value].id == id
    ensures r.Some? ==> forall j :: 0 <= j < r.value ==> players[j].id != id
    ensures r.None? <==> !Seated(players, id)
  {
    if |players| == 0 then None
    else if players[0].id == id then Some(0)
    else match FindPlayer(players[1..], id)
      case None => None
      case Some(k) => Some(k + 1)
  }

  /** The first hand card that answers for `named`, if any */
  function FindCard(hand: seq<Card>, named: Card): (r: Option<nat>)
    ensures r.Some? ==> r.value < |hand| && Matches(hand[r.value], named)
    ensures r.Some? ==> forall j :: 0 <= j < r.value ==> !Matches(hand[j], named)
    ensures r.None? <==> forall j :: 0 <= j < |hand| ==> !Matches(hand[j], named)
  {
    if |hand| == 0 then None
    else if Matches(hand[0], named) then Some(0)
    else match FindCard(hand[1..], named)
      case None => None
      case Some(k) => Some(k + 1)
  }

  function RemoveAt<T>(s: seq<T>, i: nat): (r: seq<T>)
    requires i < |s|
    ensures |r| == |s| - 1
    ensures forall k :: 0 <= k < i ==> r[k] == s[k]
    ensures forall k :: i <= k < |r| ==> r[k] == s[k + 1]
  {
    s[..i] + s[i+1..]
  }

  /** The turn index names a seat, or is 0 in an empty room */
  predicate TurnInRange(g: GameState) {
    if |g.players| == 0 then g.currentPlayerIndex == 0
    else 0 <= g.currentPlayerIndex < |g.players|
  }

  /** The state every rule may assume and every rule keeps: the turn index
      names a seat, the direction is 1 or -1, and a started game has a card
      face up. Outside it the source indexes past its arrays and throws. */
  predicate WellFormed(g: GameState) {
    && TurnInRange(g)
    && (g.direction == 1 || g.direction == -1)
    && (g.started ==> |g.discardPile| > 0)
  }

  /** The stack invariant: a pending stack is at least 2 and sits on a +2
      or +4. Only +2 and +4 grow the stack, and a draw clears it. */
  predicate StackOk(g: GameState) {
    && g.drawStack != 1
    && (g.drawStack > 0 ==> |g.discardPile| > 0 && IsStacker(Last(g.discardPile).kind))
  }

  /** The invariants the rules rely on: the seat and turn invariant and
      the stack invariant */
  predicate Valid(g: GameState) {
    WellFormed(g) && StackOk(g)
  }

  function Min(a: int, b: int): int {
    if a <= b then a else b
  }

  function Max(a: int, b: int): int {
    if a >= b then a else b
  }

  /** `x mod n` for `x` in [0, 2n], without division */
  lemma ModSmall(x: int, n: int)
    requires n > 0 && 0 <= x <= 2 * n
    ensures x % n == if x < n then x else if x < 2 * n then x - n else 0
  {
    if x < n {
      assert x == 0 * n + x;
    } else if x < 2 * n {
      assert x == 1 * n + (x - n);
    } else {
      assert x == 2 * n + 0;
    }
  }

  /** No two seats share an id */
  predicate UniqueIds(players: seq<Player>) {
    forall i, j :: 0 <= i < j < |players| ==> players[i].id != players[j].id
  }

  /* ---------------------------------------------------------------------
     Counting cards. The rules only ever move cards between the deck, the
     discard pile and the hands; the lemmas about them count, card by card,
     how many copies of a card the room holds.
     --------------------------------------------------------------------- */

  /** Occurrences of `x` in `s`; it agrees with multiset(s)[x] (CountIsMultiset) */
  function Count<T(==)>(s: seq<T>, x: T): nat {
    if |s| == 0 then 0 else (if s[0] == x then 1 else 0) + Count(s[1..], x)
  }

  lemma {:induction false} CountIsMultiset<T>(s: seq<T>, x: T)
    ensures Count(s, x) == multiset(s)[x]
  {
    if |s| > 0 {
      CountIsMultiset(s[1..], x);
      assert s == [s[0]] + s[1..];
    }
  }

  lemma {:induction false} CountConcat<T>(a: seq<T>, b: seq<T>, x: T)
    ensures Count(a + b, x) == Count(a, x) + Count(b, x)
  {
    if |a| == 0 {
      assert a + b == b;
    } else {
      assert (a + b)[1..] == a[1..] + b;
      CountConcat(a[1..], b, x);
    }
  }

  /** A permutation holds every element as often as the original */
  lemma PermutationCount<T>(a: seq<T>, b: seq<T>, x: T)
    requires multiset(a) == multiset(b)
    ensures Count(a, x) == Count(b, x)
  {
    CountIsMultiset(a, x);
    CountIsMultiset(b, x);
  }

  /** Taking element i out of s removes exactly one copy of s[i] */
  lemma {:induction false} RemoveAtCount<T>(s: seq<T>, i: nat, x: T)
    requires i < |s|
    ensures Count(RemoveAt(s, i), x) + Count([s[i]], x) == Count(s, x)
  {
    var front, one, back := s[..i], [s[i]], s[i+1..];
    assert s == front + (one + back);
    assert RemoveAt(s, i) == front + back;
    CountConcat(front, one + back, x);
    CountConcat(one, back, x);
    CountConcat(front, back, x);
  }

  /** Copies of `c` held in all hands */
  function HandCount(players: seq<Player>, c: Card): nat {
    if |players| == 0 then 0
    else Count(players[0].hand, c) + HandCount(players[1..], c)
  }

  /** Copies of `c` the room owns: in the deck, the discard pile and all hands */
  function Owned(g: GameState, c: Card): nat {
    Count(g.deck, c) + Count(g.discardPile, c) + HandCount(g.players, c)
  }

  lemma {:induction false} HandCountConcat(a: seq<Player>, b: seq<Player>, c: Card)
    ensures HandCount(a + b, c) == HandCount(a, c) + HandCount(b, c)
    decreases |a|
  {
    if |a| == 0 {
      assert a + b == b;
    } else {
      assert (a + b)[1..] == a[1..] + b;
      HandCountConcat(a[1..], b, c);
    }
  }

  /** Replacing seat k's player swaps its hand in the total */
  lemma {:induction false} HandCountUpdate(players: seq<Player>, k: nat, p: Player, c: Card)
    requires k < |players|
    ensures HandCount(players[k := p], c) + Count(players[k].hand, c) == HandCount(players, c) + Count(p.hand, c)
    decreases k
  {
    if k == 0 {
      assert players[k := p][1..] == players[1..];
    } else {
      var q := players[k := p];
      assert q[0] == players[0] && q[1..] == players[1..][k - 1 := p];
      assert players[1..][k - 1] == players[k];
      HandCountUpdate(players[1..], k - 1, p, c);
    }
  }

  /** Removing seat k removes exactly its hand from the total */
  lemma HandCountRemove(players: seq<Player>, k: nat, c: Card)
    requires k < |players|
    ensures HandCount(RemoveAt(players, k), c) + Count(players[k].hand, c) == HandCount(players, c)
  {
    assert players == players[..k] + ([players[k]] + players[k+1..]);
    assert RemoveAt(players, k) == players[..k] + players[k+1..];
    HandCountConcat(players[..k], [players[k]] + players[k+1..], c);
    HandCountConcat(players[..k], players[k+1..], c);
    assert ([players[k]] + players[k+1..])[1..] == players[k+1..];
  }

  /** Appending a player adds its hand to the total */
  lemma HandCountAppend(players: seq<Player>, p: Player, c: Card)
    ensures HandCount(players + [p], c) == HandCount(players, c) + Count(p.hand, c)
  {
    HandCountConcat(players, [p], c);
    assert [p][1..] == [];
  }
}

=== FILE: moves.dfy ===
/**
 * The moves of server/src/game/gameLogic.ts: `playCard`, `drawCard` and
 * `callUno`, on a room the registry handed over. A rejected move (the
 * source returns null) is None; the room the source stores back is Some.
 */
module Moves {
  import opened Wrappers
  import opened GameType
  import opened Turns
  import opened Draw

  /* ---------------------------------------------------------------------
     Who may move
     --------------------------------------------------------------------- */

  /** The seat a move by `id` acts on, if `id` may move: the game has
      started, `id` holds a seat (the first seat with that id is the one the
      source changes), and the seat at the turn index holds `id`. */
  function Mover(g: GameState, id: string): (r: Option<nat>)
    requires TurnInRange(g)
    ensures r.Some? <==> g.started && Seated(g.players, id) && g.players[g.currentPlayerIndex].id == id
    ensures r.Some? ==> r.value < |g.players| && g.players[r.value].id == id
    ensures r.Some? ==> forall j :: 0 <= j < r.value ==> g.players[j].id != id
  {
    if !g.started then None
    else match FindPlayer(g.players, id)
      case None => None
      case Some(k) => if g.players[g.currentPlayerIndex].id != id then None else Some(k)
  }

  /** With unique ids the seat a move acts on is the seat whose turn it is */
  lemma MoverHasTheTurn(g: GameState, id: string)
    requires TurnInRange(g) && UniqueIds(g.players)
    requires Mover(g, id).Some?
    ensures Mover(g, id).value == g.currentPlayerIndex
  {
  }

  /* ---------------------------------------------------------------------
     Drawing into a hand
     --------------------------------------------------------------------- */

  /** Seat k draws `count` cards from the piles onto the end of its hand,
      reading the random stream from its start */
  function GiveCards(g: GameState, k: nat, count: nat, rng: Rng): (r: GameState)
    requires k < |g.players|
    ensures |r.players| == |g.players|
    ensures forall j :: 0 <= j < |g.players| && j != k ==> r.players[j] == g.players[j]
    ensures r.players[k] == g.players[k].(hand := r.players[k].hand)
    ensures |r.players[k].hand| == |g.players[k].hand| + Min(count, Avail(Piles(g.deck, g.discardPile)))
    ensures r.players[k].hand[..|g.players[k].hand|] == g.players[k].hand
    ensures DiscardKept(g.discardPile, r.discardPile)
    ensures r == g.(players := r.players, deck := r.deck, discardPile := r.discardPile)
  {
    var d := DrawCards(Piles(g.deck, g.discardPile), count, rng, 0);
    var seat := g.players[k].(hand := g.players[k].hand + d.cards);
    assert seat.hand[..|g.players[k].hand|] == g.players[k].hand;
    g.(players := g.players[k := seat], deck := d.piles.deck, discardPile := d.piles.discard)
  }

  /** Drawing into a hand moves cards from the piles to the hand only */
  lemma GiveCardsConserves(g: GameState, k: nat, count: nat, rng: Rng, c: Card)
    requires k < |g.players|
    ensures Owned(GiveCards(g, k, count, rng), c) == Owned(g, c)
  {
    var d := DrawCards(Piles(g.deck, g.discardPile), count, rng, 0);
    var seat := g.players[k].(hand := g.players[k].hand + d.cards);
    DrawCardsConserves(Piles(g.deck, g.discardPile), count, rng, 0, c);
    CountConcat(g.players[k].hand, d.cards, c);
    HandCountUpdate(g.players, k, seat, c);
  }

  /* ---------------------------------------------------------------------
     drawCard
     --------------------------------------------------------------------- */

  /** Some card of the hand is playable: wild, of the current colour, or of
      the top card's value */
  predicate HasPlayable(hand: seq<Card>, currentColor: Color, top: Card) {
    exists j :: 0 <= j < |hand| && Playable(hand[j], currentColor, top)
  }

  /** drawCard(roomId, playerId): the player whose turn it is draws the
      whole stack, or one card when there is none. Paying a stack always
      passes the turn and clears the stack; a single draw passes it only
      when no card of the grown hand is playable. */
  function DrawCard(g: GameState, id: string, rng: Rng): (r: Option<GameState>)
    requires WellFormed(g)
    ensures r.Some? <==> Mover(g, id).Some?
    ensures r.Some? ==> |r.value.players| == |g.players|
    ensures r.Some? ==>
      var k := Mover(g, id).value;
      var g' := r.value;
      var count := if g.drawStack > 0 then g.drawStack else 1;
      && (forall j :: 0 <= j < |g.players| && j != k ==> g'.players[j] == g.players[j])
      && g'.players[k] == g.players[k].(hand := g'.players[k].hand)
      && |g'.players[k].hand| == |g.players[k].hand| + Min(count, Avail(Piles(g.deck, g.discardPile)))
      && g'.players[k].hand[..|g.players[k].hand|] == g.players[k].hand
    ensures r.Some? ==>
      var k := Mover(g, id).value;
      var g' := r.value;
      var passes := g.drawStack > 0 || !HasPlayable(g'.players[k].hand, g.currentColor, Last(g.discardPile));
      && DiscardKept(g.discardPile, g'.discardPile)
      && g'.drawStack == 0
      && (passes ==> g'.currentPlayerIndex == Neighbour(g.currentPlayerIndex, g.direction, |g.players|))
      && (passes ==> g'.currentPlayer == g'.players[g'.currentPlayerIndex].id)
      && (!passes ==> g'.currentPlayerIndex == g.currentPlayerIndex && g'.currentPlayer == g.currentPlayer)
      && g' == g.(players := g'.players, deck := g'.deck, discardPile := g'.discardPile,
                  drawStack := 0, currentPlayerIndex := g'.currentPlayerIndex, currentPlayer := g'.currentPlayer)
  {
    match Mover(g, id)
    case None => None
    case Some(k) =>
      var g1 := GiveCards(g, k, if g.drawStack > 0 then g.drawStack else 1, rng);
      AdvanceMovesOneSeat(g1);
      if g.drawStack > 0 then Some(AdvanceTurn(g1).(drawStack := 0))
      else if !HasPlayable(g1.players[k].hand, g1.currentColor, Last(g1.discardPile)) then Some(AdvanceTurn(g1))
      else Some(g1)
  }

  /** drawCard keeps the invariant */
  lemma DrawCardKeepsWellFormed(g: GameState, id: string, rng: Rng)
    requires WellFormed(g)
    ensures DrawCard(g, id, rng).Some? ==> WellFormed(DrawCard(g, id, rng).value)
  {
  }

  /** drawCard only moves cards from the piles into the drawer's hand */
  lemma DrawCardConserves(g: GameState, id: string, rng: Rng, c: Card)
    requires WellFormed(g)
    requires DrawCard(g, id, rng).Some?
    ensures Owned(DrawCard(g, id, rng).value, c) == Owned(g, c)
  {
    var k := Mover(g, id).value;
    GiveCardsConserves(g, k, if g.drawStack > 0 then g.drawStack else 1, rng, c);
  }

  /* ---------------------------------------------------------------------
     The stack invariant
     --------------------------------------------------------------------- */

  /** drawCard keeps the stack invariant: it leaves no stack */
  lemma DrawCardKeepsStack(g: GameState, id: string, rng: Rng)
    requires WellFormed(g)
    ensures DrawCard(g, id, rng).Some? ==> StackOk(DrawCard(g, id, rng).value)
  {
  }

  /* ---------------------------------------------------------------------
     playCard
     --------------------------------------------------------------------- */

  /** The source's redirect: a +2 or +4 sent onto a card that is neither,
      while a stack of more than one is pending, turns into drawCard. */
  predicate Redirects(g: GameState, card: Card)
    requires |g.discardPile| > 0
  {
    var top := Last(g.discardPile);
    IsStacker(card.kind) && top.kind != card.kind && !IsStacker(top.kind) && g.drawStack > 1
  }

  /** A legal play of the card the client names: playable on the top card,
      and a +2 or +4 while a stack of more than one is pending. */
  predicate Legal(g: GameState, card: Card)
    requires |g.discardPile| > 0
  {
    Playable(card, g.currentColor, Last(g.discardPile)) && (g.drawStack > 1 ==> IsStacker(card.kind))
  }

  /** The played hand card leaves the hand for the top of the discard pile
      and sets the colour: the chosen one for a wild card when a colour was
      sent, the card's own otherwise. */
  function Discard(g: GameState, k: nat, h: nat, chosen: Option<Color>): (r: GameState)
    requires WellFormed(g)
    requires k < |g.players| && h < |g.players[k].hand|
    ensures WellFormed(r)
    ensures r.players == g.players[k := g.players[k].(hand := RemoveAt(g.players[k].hand, h))]
    ensures r.discardPile == g.discardPile + [g.players[k].hand[h]]
    ensures g.players[k].hand[h].color != Wild ==> r.currentColor == g.players[k].hand[h].color
    ensures g.players[k].hand[h].color == Wild && chosen.Some? ==> r.currentColor == chosen.value
    ensures g.players[k].hand[h].color == Wild && chosen.None? ==> r.currentColor == Wild
    ensures r == g.(players := r.players, discardPile := r.discardPile, currentColor := r.currentColor)
  {
    var played := g.players[k].hand[h];
    g.(players := g.players[k := g.players[k].(hand := RemoveAt(g.players[k].hand, h))],
       discardPile := g.discardPile + [played],
       currentColor := if played.color == Wild && chosen.Some? then chosen.value else played.color)
  }

  /** What the stack grows by when a card of this kind is played */
  function StackBonus(kind: Kind): (r: nat)
    ensures r > 0 <==> IsStacker(kind)
  {
    match kind
    case DrawTwo => 2
    case DrawFour => 4
    case _ => 0
  }

  /** Whether a card of this kind, at a table of n, makes the turn move an
      extra seat: a skip always, a reverse when two play */
  predicate ExtraHop(kind: Kind, n: nat) {
    kind == Skip || (kind == Reverse && n == 2)
  }

  /** The card's own effect: skip passes the turn once more; reverse turns
      the direction round and, with two players, passes the turn once more;
      +2 and +4 grow the stack. */
  function Effect(g: GameState, kind: Kind): (r: GameState)
    requires WellFormed(g)
    ensures WellFormed(r)
    ensures r.direction == if kind == Reverse then -g.direction else g.direction
    ensures r.drawStack == g.drawStack + StackBonus(kind)
    ensures |g.players| > 0 && ExtraHop(kind, |g.players|) ==>
      r.currentPlayerIndex == Neighbour(g.currentPlayerIndex, r.direction, |g.players|)
    ensures !ExtraHop(kind, |g.players|) ==>
      r.currentPlayerIndex == g.currentPlayerIndex && r.currentPlayer == g.currentPlayer
    ensures r == g.(direction := r.direction, drawStack := r.drawStack,
                    currentPlayerIndex := r.currentPlayerIndex, currentPlayer := r.currentPlayer)
  {
    match kind
    case Skip =>
      if |g.players| == 0 then g else AdvanceMovesOneSeat(g); AdvanceTurn(g)
    case Reverse =>
      var g1 := g.(direction := -g.direction);
      if |g.players| == 2 then AdvanceMovesOneSeat(g1); AdvanceTurn(g1) else g1
    case DrawTwo => g.(drawStack := g.drawStack + 2)
    case DrawFour => g.(drawStack := g.drawStack + 4)
    case _ => g
  }

  /** The UNO penalty: a player left with one card who has not called UNO
      draws two */
  function Penalty(g: GameState, k: nat, rng: Rng): (r: GameState)
    requires k < |g.players|
    ensures WellFormed(g) ==> WellFormed(r)
    ensures |r.players| == |g.players|
    ensures forall j :: 0 <= j < |g.players| && j != k ==> r.players[j] == g.players[j]
    ensures r.players[k] == g.players[k].(hand := r.players[k].hand)
    ensures |r.players[k].hand| == |g.players[k].hand| +
      (if |g.players[k].hand| == 1 && !g.players[k].calledUno then Min(2, Avail(Piles(g.deck, g.discardPile))) else 0)
    ensures r.players[k].hand[..|g.players[k].hand|] == g.players[k].hand
    ensures DiscardKept(g.discardPile, r.discardPile)
    ensures r == g.(players := r.players, deck := r.deck, discardPile := r.discardPile)
    // The two cases spelled out, so that the conservation and stack proofs
    // can reuse GiveCards' own contract without unfolding this function
    ensures !(|g.players[k].hand| == 1 && !g.players[k].calledUno) ==> r == g
    ensures |g.players[k].hand| == 1 && !g.players[k].calledUno ==> r == GiveCards(g, k, 2, rng)
  {
    if |g.players[k].hand| == 1 && !g.players[k].calledUno then GiveCards(g, k, 2, rng) else g
  }

  /** The end of a play: the player's UNO call is cleared and an empty hand
      wins. The winner is the seat itself, so it shows the cleared call. */
  function Settle(g: GameState, k: nat): (r: GameState)
    requires k < |g.players|
    ensures WellFormed(g) ==> WellFormed(r)
    ensures r.players == g.players[k := g.players[k].(calledUno := false)]
    ensures |g.players[k].hand| == 0 ==> r.winner == Some(r.players[k])
    ensures |g.players[k].hand| > 0 ==> r.winner == g.winner
    ensures r == g.(players := r.players, winner := r.winner)
  {
    var seat := g.players[k].(calledUno := false);
    g.(players := g.players[k := seat], winner := if |seat.hand| == 0 then Some(seat) else g.winner)
  }

  /** A legal play of hand card h by seat k: discard it, apply its effect,
      the UNO penalty, the win check, then pass the turn. */
  function Play(g: GameState, k: nat, h: nat, chosen: Option<Color>, rng: Rng): (r: GameState)
    requires WellFormed(g)
    requires k < |g.players| && h < |g.players[k].hand|
    ensures WellFormed(r)
  {
    var g1 := Discard(g, k, h, chosen);
    var g2 := Effect(g1, g.players[k].hand[h].kind);
    var g3 := Penalty(g2, k, rng);
    var g4 := Settle(g3, k);
    AdvanceTurn(g4)
  }

  /** playCard(roomId, playerId, card, color): rejected unless the game has
      started, it is the player's turn and a hand card matches the named
      card; a +2 or +4 the redirect catches becomes drawCard; otherwise
      rejected unless legal, and played when legal. */
  function PlayCard(g: GameState, id: string, card: Card, chosen: Option<Color>, rng: Rng): (r: Option<GameState>)
    requires WellFormed(g)
    ensures Mover(g, id).None? ==> r.None?
    ensures Mover(g, id).Some? && FindCard(g.players[Mover(g, id).value].hand, card).None? ==> r.None?
    ensures Mover(g, id).Some? && FindCard(g.players[Mover(g, id).value].hand, card).Some? ==>
      var k := Mover(g, id).value;
      var h := FindCard(g.players[k].hand, card).value;
      && (Redirects(g, card) ==> r == DrawCard(g, id, rng) && r.Some?)
      && (!Redirects(g, card) && !Legal(g, card) ==> r.None?)
      && (!Redirects(g, card) && Legal(g, card) ==> r == Some(Play(g, k, h, chosen, rng)))
  {
    match Mover(g, id)
    case None => None
    case Some(k) =>
      match FindCard(g.players[k].hand, card)
      case None => None
      case Some(h) =>
        if Redirects(g, card) then DrawCard(g, id, rng)
        else if !Legal(g, card) then None
        else Some(Play(g, k, h, chosen, rng))
  }

  /** A play changes only the player's own seat, and there only the hand
      and the UNO call, which is cleared. */
  lemma PlaySeats(g: GameState, k: nat, h: nat, chosen: Option<Color>, rng: Rng)
    requires WellFormed(g)
    requires k < |g.players| && h < |g.players[k].hand|
    ensures |Play(g, k, h, chosen, rng).players| == |g.players|
    ensures forall j :: 0 <= j < |g.players| && j != k ==> Play(g, k, h, chosen, rng).players[j] == g.players[j]
    ensures Play(g, k, h, chosen, rng).players[k] ==
      g.players[k].(hand := Play(g, k, h, chosen, rng).players[k].hand, calledUno := false)
  {
    var g1 := Discard(g, k, h, chosen);
    var g2 := Effect(g1, g.players[k].hand[h].kind);
    var g3 := Penalty(g2, k, rng);
    assert Play(g, k, h, chosen, rng).players == Settle(g3, k).players;
  }

  /** The played card leaves the hand; a player left with one card who had
      not called UNO draws two more, as far as the piles allow. */
  lemma PlayHand(g: GameState, k: nat, h: nat, chosen: Option<Color>, rng: Rng)
    requires WellFormed(g)
    requires k < |g.players| && h < |g.players[k].hand|
    ensures |Play(g, k, h, chosen, rng).players| == |g.players|
    ensures
      var seat := g.players[k];
      var rest := RemoveAt(seat.hand, h);
      var hand' := Play(g, k, h, chosen, rng).players[k].hand;
      && |hand'| == |rest| + (if |rest| == 1 && !seat.calledUno then Min(2, |g.deck| + |g.discardPile|) else 0)
      && hand'[..|rest|] == rest
  {
    var g1 := Discard(g, k, h, chosen);
    var g2 := Effect(g1, g.players[k].hand[h].kind);
    var g3 := Penalty(g2, k, rng);
    assert g2.players == g1.players;
    assert g1.players[k].hand == RemoveAt(g.players[k].hand, h);
    assert Avail(Piles(g2.deck, g2.discardPile)) == |g.deck| + |g.discardPile|;
    assert Play(g, k, h, chosen, rng).players[k].hand == g3.players[k].hand;
  }

  /** What a play does to the piles and the table: the played card is the
      new top, the colour is the chosen one for a wild card when a colour
      was sent and the card's own otherwise, a reverse turns the direction
      round, a +2 or +4 grows the stack by 2 or 4, and nothing else about
      the room changes. */
  lemma PlayTable(g: GameState, k: nat, h: nat, chosen: Option<Color>, rng: Rng)
    requires WellFormed(g)
    requires k < |g.players| && h < |g.players[k].hand|
    ensures
      var played := g.players[k].hand[h];
      var r := Play(g, k, h, chosen, rng);
      && |r.discardPile| > 0 && Last(r.discardPile) == played
      && (played.color != Wild ==> r.currentColor == played.color)
      && (played.color == Wild && chosen.Some? ==> r.currentColor == chosen.value)
      && (played.color == Wild && chosen.None? ==> r.currentColor == Wild)
      && r.direction == (if played.kind == Reverse then -g.direction else g.direction)
      && r.drawStack == g.drawStack + StackBonus(played.kind)
      && r.roomId == g.roomId && r.maxPlayers == g.maxPlayers && r.started == g.started
  {
    PlayTop(g, k, h, chosen, rng);
    PlayCounters(g, k, h, chosen, rng);
  }

  /** The played card ends on top of the discard pile and sets the colour */
  lemma PlayTop(g: GameState, k: nat, h: nat, chosen: Option<Color>, rng: Rng)
    requires WellFormed(g)
    requires k < |g.players| && h < |g.players[k].hand|
    ensures
      var r := Play(g, k, h, chosen, rng);
      && |r.discardPile| > 0 && Last(r.discardPile) == g.players[k].hand[h]
      && r.currentColor == Discard(g, k, h, chosen).currentColor
  {
    var played := g.players[k].hand[h];
    var g1 := Discard(g, k, h, chosen);
    var g2 := Effect(g1, played.kind);
    var g3 := Penalty(g2, k, rng);
    var g4 := Settle(g3, k);
    assert g2.discardPile == g1.discardPile && Last(g1.discardPile) == played;
    assert DiscardKept(g2.discardPile, g3.discardPile);
    assert g4.discardPile == g3.discardPile && g4.currentColor == g1.currentColor;
  }

  /** A reverse turns the direction round, a +2 or +4 grows the stack, and
      the room's name, size and started flag stay */
  lemma PlayCounters(g: GameState, k: nat, h: nat, chosen: Option<Color>, rng: Rng)
    requires WellFormed(g)
    requires k < |g.players| && h < |g.players[k].hand|
    ensures
      var kind := g.players[k].hand[h].kind;
      var r := Play(g, k, h, chosen, rng);
      && r.direction == (if kind == Reverse then -g.direction else g.direction)
      && r.drawStack == g.drawStack + StackBonus(kind)
      && r.roomId == g.roomId && r.maxPlayers == g.maxPlayers && r.started == g.started
  {
    var kind := g.players[k].hand[h].kind;
    var g1 := Discard(g, k, h, chosen);
    var g2 := Effect(g1, kind);
    var g3 := Penalty(g2, k, rng);
    var g4 := Settle(g3, k);
    assert g4.direction == g2.direction && g4.drawStack == g2.drawStack;
  }


  /** Where a play passes the turn: one seat on in the new direction, or two
      after a skip, or after a reverse at a table of two. */
  lemma PlayTurn(g: GameState, k: nat, h: nat, chosen: Option<Color>, rng: Rng)
    requires WellFormed(g)
    requires k < |g.players| && h < |g.players[k].hand|
    ensures
      var kind := g.players[k].hand[h].kind;
      var n := |g.players|;
      var r := Play(g, k, h, chosen, rng);
      && r.currentPlayerIndex == Hops(g.currentPlayerIndex, r.direction, n, if ExtraHop(kind, n) then 2 else 1)
      && r.currentPlayer == r.players[r.currentPlayerIndex].id
  {
    var kind := g.players[k].hand[h].kind;
    var g1 := Discard(g, k, h, chosen);
    var g2 := Effect(g1, kind);
    var g3 := Penalty(g2, k, rng);
    var g4 := Settle(g3, k);
    AdvanceMovesOneSeat(g4);
    var n := |g.players|;
    var i := g.currentPlayerIndex;
    if ExtraHop(kind, n) {
      assert g4.currentPlayerIndex == Neighbour(i, g2.direction, n);
      assert Hops(i, g2.direction, n, 2) == Hops(Neighbour(i, g2.direction, n), g2.direction, n, 1);
    } else {
      assert g4.currentPlayerIndex == i;
    }
  }

  /** With two players a skip and a reverse both give the turn back to the
      player who played them. */
  lemma SkipAndReverseOfTwo(g: GameState, k: nat, h: nat, chosen: Option<Color>, rng: Rng)
    requires WellFormed(g)
    requires k < |g.players| && h < |g.players[k].hand|
    requires |g.players| == 2 && (g.players[k].hand[h].kind == Skip || g.players[k].hand[h].kind == Reverse)
    ensures Play(g, k, h, chosen, rng).currentPlayerIndex == g.currentPlayerIndex
  {
    PlayTurn(g, k, h, chosen, rng);
    TwoHopsOfTwo(g.currentPlayerIndex, Play(g, k, h, chosen, rng).direction);
  }

  /** An empty hand wins: the winner is the player's seat as stored;
      otherwise the winner is left as it was, set or not. */
  lemma PlayWinner(g: GameState, k: nat, h: nat, chosen: Option<Color>, rng: Rng)
    requires WellFormed(g)
    requires k < |g.players| && h < |g.players[k].hand|
    ensures
      var r := Play(g, k, h, chosen, rng);
      && |r.players| == |g.players|
      && (|r.players[k].hand| == 0 ==> r.winner == Some(r.players[k]))
      && (|r.players[k].hand| > 0 ==> r.winner == g.winner)
  {
    var g1 := Discard(g, k, h, chosen);
    var g2 := Effect(g1, g.players[k].hand[h].kind);
    var g3 := Penalty(g2, k, rng);
    var g4 := Settle(g3, k);
    assert g4.players[k].hand == g3.players[k].hand;
  }

  /** Discarding moves one card from the hand to the discard pile */
  lemma DiscardConserves(g: GameState, k: nat, h: nat, chosen: Option<Color>, c: Card)
    requires WellFormed(g)
    requires k < |g.players| && h < |g.players[k].hand|
    ensures Owned(Discard(g, k, h, chosen), c) == Owned(g, c)
  {
    var seat := g.players[k];
    RemoveAtCount(seat.hand, h, c);
    CountConcat(g.discardPile, [seat.hand[h]], c);
    HandCountUpdate(g.players, k, seat.(hand := RemoveAt(seat.hand, h)), c);
  }

  lemma PenaltyConserves(g: GameState, k: nat, rng: Rng, c: Card)
    requires k < |g.players|
    ensures Owned(Penalty(g, k, rng), c) == Owned(g, c)
  {
    if |g.players[k].hand| == 1 && !g.players[k].calledUno {
      GiveCardsConserves(g, k, 2, rng, c);
    }
  }

  lemma SettleConserves(g: GameState, k: nat, c: Card)
    requires k < |g.players|
    ensures Owned(Settle(g, k), c) == Owned(g, c)
  {
    HandCountUpdate(g.players, k, g.players[k].(calledUno := false), c);
  }

  /** A play only moves cards: the played card to the discard pile, and any
      penalty cards from the piles to the hand. */
  lemma PlayConservesCards(g: GameState, k: nat, h: nat, chosen: Option<Color>, rng: Rng, c: Card)
    requires WellFormed(g)
    requires k < |g.players| && h < |g.players[k].hand|
    ensures Owned(Play(g, k, h, chosen, rng), c) == Owned(g, c)
  {
    var g1 := Discard(g, k, h, chosen);
    var g2 := Effect(g1, g.players[k].hand[h].kind);
    var g3 := Penalty(g2, k, rng);
    DiscardConserves(g, k, h, chosen, c);
    PenaltyConserves(g2, k, rng, c);
    SettleConserves(g3, k, c);
  }

  /** Under the stack invariant the redirect never fires: a pending stack
      always sits on a +2 or +4. */
  lemma NoRedirectUnderStack(g: GameState, card: Card)
    requires |g.discardPile| > 0 && StackOk(g)
    ensures !Redirects(g, card)
  {
  }

  /** A successful playCard keeps the invariant */
  lemma PlayCardKeepsWellFormed(g: GameState, id: string, card: Card, chosen: Option<Color>, rng: Rng)
    requires WellFormed(g)
    ensures PlayCard(g, id, card, chosen, rng).Some? ==> WellFormed(PlayCard(g, id, card, chosen, rng).value)
  {
    if PlayCard(g, id, card, chosen, rng).Some? && Redirects(g, card) {
      DrawCardKeepsWellFormed(g, id, rng);
    }
  }

  /** A successful playCard neither creates nor loses a card */
  lemma PlayCardConserves(g: GameState, id: string, card: Card, chosen: Option<Color>, rng: Rng, c: Card)
    requires WellFormed(g)
    ensures PlayCard(g, id, card, chosen, rng).Some? ==> Owned(PlayCard(g, id, card, chosen, rng).value, c) == Owned(g, c)
  {
    if PlayCard(g, id, card, chosen, rng).Some? {
      var k := Mover(g, id).value;
      var h := FindCard(g.players[k].hand, card).value;
      if Redirects(g, card) {
        DrawCardConserves(g, id, rng, c);
      } else {
        PlayConservesCards(g, k, h, chosen, rng, c);
      }
    }
  }

  /** A successful playCard keeps the stack invariant: a stack is only
      started or grown by a +2 or +4, which then lies on top. */
  lemma PlayCardKeepsStack(g: GameState, id: string, card: Card, chosen: Option<Color>, rng: Rng)
    requires WellFormed(g) && StackOk(g)
    ensures PlayCard(g, id, card, chosen, rng).Some? ==> StackOk(PlayCard(g, id, card, chosen, rng).value)
  {
    if PlayCard(g, id, card, chosen, rng).Some? {
      assert Mover(g, id).Some?;
      var k := Mover(g, id).value;
      assert FindCard(g.players[k].hand, card).Some?;
      var h := FindCard(g.players[k].hand, card).value;
      NoRedirectUnderStack(g, card);
      assert Legal(g, card);
      assert g.players[k].hand[h].kind == card.kind;
      PlayKeepsStack(g, k, h, chosen, rng);
    }
  }

  /** A play keeps the stack invariant when a pending stack of more than
      one is answered with a +2 or +4 */
  lemma PlayKeepsStack(g: GameState, k: nat, h: nat, chosen: Option<Color>, rng: Rng)
    requires WellFormed(g) && StackOk(g)
    requires k < |g.players| && h < |g.players[k].hand|
    requires g.drawStack > 1 ==> IsStacker(g.players[k].hand[h].kind)
    ensures StackOk(Play(g, k, h, chosen, rng))
  {
    PlayTable(g, k, h, chosen, rng);
  }


  /** playCard never looks at the winner: after a win the game goes on
      accepting moves exactly as before. */
  lemma PlayIgnoresWinner(g: GameState, id: string, card: Card, chosen: Option<Color>, rng: Rng, w: Option<Player>)
    requires WellFormed(g)
    ensures PlayCard(g.(winner := w), id, card, chosen, rng).Some? <==> PlayCard(g, id, card, chosen, rng).Some?
  {
    var g' := g.(winner := w);
    assert Mover(g', id) == Mover(g, id);
  }

  /* ---------------------------------------------------------------------
     callUno
     --------------------------------------------------------------------- */

  /** callUno(roomId, playerId): in a started game, the first seat holding
      the id records the call, whoever's turn it is. */
  function CallUno(g: GameState, id: string): (r: Option<GameState>)
    ensures r.Some? <==> g.started && Seated(g.players, id)
    ensures r.Some? ==>
      var k := FindPlayer(g.players, id).value;
      && |r.value.players| == |g.players|
      && r.value.players[k].calledUno
      && r.value.players[k] == g.players[k].(calledUno := true)
      && (forall j :: 0 <= j < |g.players| && j != k ==> r.value.players[j] == g.players[j])
      && r.value == g.(players := r.value.players)
  {
    if !g.started then None
    else match FindPlayer(g.players, id)
      case None => None
      case Some(k) => Some(g.(players := g.players[k := g.players[k].(calledUno := true)]))
  }

  /** callUno keeps the invariant, the stack invariant and every card */
  lemma CallUnoKeeps(g: GameState, id: string, c: Card)
    requires CallUno(g, id).Some?
    ensures WellFormed(g) ==> WellFormed(CallUno(g, id).value)
    ensures StackOk(g) ==> StackOk(CallUno(g, id).value)
    ensures Owned(CallUno(g, id).value, c) == Owned(g, c)
  {
    var k := FindPlayer(g.players, id).value;
    HandCountUpdate(g.players, k, g.players[k].(calledUno := true), c);
  }
}

=== FILE: room_cache.dfy ===
/**
 * The room registry of server/src/utils/game.ts: an in-memory cache of
 * rooms in front of a document store, with at most one delayed write per
 * room. The delayed write is an explicit `Fire` event here; the store is a
 * map standing in for the database collection.
 */
module RoomCache {
  import opened Wrappers

  /** `cache` is the `rooms` object, `pending` the room each running save
      timer will write, `store` the database. */
  datatype Registry<V> = Registry(cache: map<string, V>, pending: map<string, V>, store: map<string, V>)

  /** getGameState(roomId): a cached room is returned as it is and the
      store is not read; on a miss a stored room is loaded into the cache
      and returned; a room in neither gives undefined (None). */
  function Get<V>(reg: Registry<V>, id: string): (r: (Option<V>, Registry<V>))
    ensures id in reg.cache ==> r.0 == Some(reg.cache[id]) && r.1 == reg
    ensures id !in reg.cache && id in reg.store ==>
      r.0 == Some(reg.store[id]) && r.1.cache == reg.cache[id := reg.store[id]]
    ensures id !in reg.cache && id !in reg.store ==> r.0.None? && r.1 == reg
    ensures r.1.pending == reg.pending && r.1.store == reg.store
    ensures r.0.Some? <==> id in reg.cache || id in reg.store
    ensures r.0.Some? ==> id in r.1.cache && r.1.cache[id] == r.0.value
  {
    if id in reg.cache then (Some(reg.cache[id]), reg)
    else if id in reg.store then (Some(reg.store[id]), reg.(cache := reg.cache[id := reg.store[id]]))
    else (None, reg)
  }

  /** setGameState(roomId, state): the cache holds the new state at once,
      and the room's running save timer, if any, is replaced by one that
      will write this state. */
  function Set<V>(reg: Registry<V>, id: string, v: V): (r: Registry<V>)
    ensures id in r.cache && r.cache[id] == v
    ensures id in r.pending && r.pending[id] == v
    ensures r.store == reg.store
    ensures forall other :: other != id ==> Unmoved(reg, r, other)
  {
    Registry(reg.cache[id := v], reg.pending[id := v], reg.store)
  }

  /** The save timer of a room fires: the store gets the state captured
      when the timer was set, and the timer is gone. Without a timer
      nothing happens. */
  function Fire<V>(reg: Registry<V>, id: string): (r: Registry<V>)
    ensures id in reg.pending ==> id in r.store && r.store[id] == reg.pending[id]
    ensures id !in r.pending
    ensures r.cache == reg.cache
    ensures id !in reg.pending ==> r == reg
    ensures forall other :: other != id ==> Unmoved(reg, r, other)
  {
    if id in reg.pending then Registry(reg.cache, reg.pending - {id}, reg.store[id := reg.pending[id]])
    else reg
  }

  /** deleteGameRoom(roomId): drop the cached room, cancel its timer and
      delete the stored record */
  function Delete<V>(reg: Registry<V>, id: string): (r: Registry<V>)
    ensures id !in r.cache && id !in r.pending && id !in r.store
    ensures forall other :: other != id ==> Unmoved(reg, r, other)
  {
    Registry(reg.cache - {id}, reg.pending - {id}, reg.store - {id})
  }

  /** A change made to the cached room object itself, without calling
      setGameState (joinGameRoom when a room size was passed): the cache
      shows it, and so does a pending write, which holds the same object;
      the store does not. */
  function UpdateInPlace<V>(reg: Registry<V>, id: string, v: V): (r: Registry<V>)
    requires id in reg.cache
    ensures id in r.cache && r.cache[id] == v
    ensures id in reg.pending ==> id in r.pending && r.pending[id] == v
    ensures id !in reg.pending ==> id !in r.pending
    ensures r.store == reg.store
    ensures forall other :: other != id ==> Unmoved(reg, r, other)
  {
    Registry(reg.cache[id := v],
             if id in reg.pending then reg.pending[id := v] else reg.pending,
             reg.store)
  }

  /** Room `id` has the same entries, present or absent, in the three maps
      of both registries */
  ghost predicate Unmoved<V>(a: Registry<V>, b: Registry<V>, id: string) {
    && (id in a.cache <==> id in b.cache) && (id in a.cache ==> a.cache[id] == b.cache[id])
    && (id in a.pending <==> id in b.pending) && (id in a.pending ==> a.pending[id] == b.pending[id])
    && (id in a.store <==> id in b.store) && (id in a.store ==> a.store[id] == b.store[id])
  }

  /* ---------------------------------------------------------------------
     Properties
     --------------------------------------------------------------------- */

  /** Read-your-writes: a get after a set returns the state just set */
  lemma ReadYourWrites<V>(reg: Registry<V>, id: string, v: V)
    ensures Get(Set(reg, id, v), id).0 == Some(v)
  {
  }

  /** A second get finds the room in the cache and changes nothing */
  lemma GetTwice<V>(reg: Registry<V>, id: string)
    ensures Get(Get(reg, id).1, id).0 == Get(reg, id).0
    ensures Get(Get(reg, id).1, id).1 == Get(reg, id).1
  {
  }

  /** A set cancels the write scheduled before it: two sets in a row leave
      the registry as the second alone would. */
  lemma SetCoalesces<V>(reg: Registry<V>, id: string, v1: V, v2: V)
    ensures Set(Set(reg, id, v1), id, v2) == Set(reg, id, v2)
  {
  }

  /** A burst of sets, first to last */
  function SetAll<V>(reg: Registry<V>, id: string, vs: seq<V>): (r: Registry<V>)
    ensures r.store == reg.store
    ensures |vs| == 0 ==> r == reg
    decreases |vs|
  {
    if |vs| == 0 then reg else SetAll(Set(reg, id, vs[0]), id, vs[1..])
  }

  /** A burst of sets is one set of the last state */
  lemma {:induction false} SetAllIsLastSet<V>(reg: Registry<V>, id: string, vs: seq<V>)
    requires |vs| > 0
    ensures SetAll(reg, id, vs) == Set(reg, id, vs[|vs| - 1])
    decreases |vs|
  {
    if |vs| > 1 {
      SetAllIsLastSet(Set(reg, id, vs[0]), id, vs[1..]);
      SetCoalesces(reg, id, vs[0], vs[|vs| - 1]);
    }
  }

  /** So a burst of sets ends in one write, of the last state, and nothing
      is left pending for the room. */
  lemma BurstWritesLast<V>(reg: Registry<V>, id: string, vs: seq<V>)
    requires |vs| > 0
    ensures var r := Fire(SetAll(reg, id, vs), id);
      id in r.store && r.store[id] == vs[|vs| - 1] && id !in r.pending
  {
    SetAllIsLastSet(reg, id, vs);
  }

  /** After a delete the room is gone: get gives undefined, even after a
      timer would have fired */
  lemma DeleteThenGet<V>(reg: Registry<V>, id: string)
    ensures Get(Delete(reg, id), id).0.None?
    ensures Get(Fire(Delete(reg, id), id), id).0.None?
  {
  }

  /* ---------------------------------------------------------------------
     Invariants
     --------------------------------------------------------------------- */

  /** Every scheduled write belongs to a cached room and will write what
      the cache holds: the save timer captured the cached object itself. */
  ghost predicate Coherent<V>(reg: Registry<V>) {
    forall id :: id in reg.pending ==> id in reg.cache && reg.cache[id] == reg.pending[id]
  }

  /** Every cached room is either waiting to be written or equal to the
      stored record: a restart loses nothing. */
  ghost predicate Saved<V>(reg: Registry<V>) {
    forall id :: id in reg.cache && id !in reg.pending ==> id in reg.store && reg.store[id] == reg.cache[id]
  }

  /** get, set, fire, delete and in-place changes keep the registry coherent */
  lemma OpsKeepCoherent<V>(reg: Registry<V>, id: string, v: V)
    requires Coherent(reg)
    ensures Coherent(Get(reg, id).1)
    ensures Coherent(Set(reg, id, v))
    ensures Coherent(Fire(reg, id))
    ensures Coherent(Delete(reg, id))
    ensures id in reg.cache ==> Coherent(UpdateInPlace(reg, id, v))
  {
  }

  /** get, set, fire and delete keep every cached room saved or pending */
  lemma OpsKeepSaved<V>(reg: Registry<V>, id: string, v: V)
    requires Coherent(reg) && Saved(reg)
    ensures Saved(Get(reg, id).1)
    ensures Saved(Set(reg, id, v))
    ensures Saved(Fire(reg, id))
    ensures Saved(Delete(reg, id))
  {
  }

  /** An in-place change to a room with no write pending is not saved: the
      cache and the store now disagree and no timer will reconcile them. */
  lemma InPlaceChangeUnsaved<V>(reg: Registry<V>, id: string, v: V)
    requires id in reg.cache && id !in reg.pending && id in reg.store && reg.store[id] != v
    ensures !Saved(UpdateInPlace(reg, id, v))
  {
    var r := UpdateInPlace(reg, id, v);
    assert id in r.cache && id !in r.pending && r.store[id] != r.cache[id];
  }
}

=== FILE: room_service.dfy ===
/**
 * The exported operations of server/src/game/gameLogic.ts as the socket
 * layer calls them: fetch the room through the registry, apply the rule,
 * and hand the result back to the registry (setGameState, or
 * deleteGameRoom when the last player leaves).
 */
module RoomService {
  import opened Wrappers
  import opened GameType
  import opened RoomCache
  import opened Seating
  import opened Start
  import opened Moves

  type Rooms = Registry<GameState>

  /** Every room the registry holds, cached, pending or stored, is valid */
  ghost predicate Healthy(reg: Rooms) {
    && (forall id :: id in reg.cache ==> Valid(reg.cache[id]))
    && (forall id :: id in reg.pending ==> Valid(reg.pending[id]))
    && (forall id :: id in reg.store ==> Valid(reg.store[id]))
  }

  /** A fetched room comes from a healthy registry, which stays healthy */
  lemma GetHealthy(reg: Rooms, id: string)
    requires Healthy(reg)
    ensures Healthy(Get(reg, id).1)
    ensures Get(reg, id).0.Some? ==> Valid(Get(reg, id).0.value)
  {
  }

  /** In any room of a healthy registry, a pending stack can only be
      answered: no card redirects the turn while a stack is pending */
  lemma StackedRoomNeverRedirects(reg: Rooms, roomId: string, card: Card)
    requires Healthy(reg)
    ensures var got := Get(reg, roomId).0;
      got.Some? && got.value.drawStack > 0 ==> !Redirects(got.value, card)
  {
    GetHealthy(reg, roomId);
    var got := Get(reg, roomId).0;
    if got.Some? && got.value.drawStack > 0 {
      NoRedirectUnderStack(got.value, card);
    }
  }

  /** The registry after a move: a rejected move stores nothing, an
      accepted one is set */
  function Commit(reg: Rooms, id: string, res: Option<GameState>): (r: Rooms)
    ensures res.None? ==> r == reg
    ensures res.Some? ==> Get(r, id).0 == res && id in r.pending && r.pending[id] == res.value
    ensures r.store == reg.store
    ensures forall other :: other != id ==> Unmoved(reg, r, other)
  {
    match res
    case None => reg
    case Some(g) => Set(reg, id, g)
  }

  /* ---------------------------------------------------------------------
     joinGameRoom
     --------------------------------------------------------------------- */

  /** The first step of joinGameRoom: the fetched room, or a new room that
      is saved at once */
  function Open(reg: Rooms, roomId: string, id: string, maxPlayers: Option<int>): (r: (GameState, Rooms))
    ensures Get(reg, roomId).0.Some? ==> r == (Get(reg, roomId).0.value, Get(reg, roomId).1)
    ensures Get(reg, roomId).0.None? ==>
      r.0 == NewRoom(roomId, id, maxPlayers) && r.1 == Set(Get(reg, roomId).1, roomId, r.0)
    ensures roomId in r.1.cache && r.1.cache[roomId] == r.0
  {
    var got := Get(reg, roomId);
    if got.0.Some? then (got.0.value, got.1)
    else
      var room := NewRoom(roomId, id, maxPlayers);
      (room, Set(got.1, roomId, room))
  }

  /** joinGameRoom(roomId, player, maxPlayers): fetch the room or create
      and save a new one; seat the player unless seated; save the room only
      when no room size was passed (`!maxPlayers`, so also for 0), the
      cached room being changed in place otherwise. The result is the
      room as reported to the caller. */
  function Join(reg: Rooms, roomId: string, id: string, name: string, maxPlayers: Option<int>): (r: (GameState, Rooms))
    ensures roomId in r.1.cache && r.0 == JoinView(r.1.cache[roomId])
    ensures Seated(r.1.cache[roomId].players, id)
    ensures Get(reg, roomId).0.Some? ==> r.1.cache[roomId] == Seat(Get(reg, roomId).0.value, id, name)
    ensures Get(reg, roomId).0.None? ==> r.1.cache[roomId] == Seat(NewRoom(roomId, id, maxPlayers), id, name)
    ensures Get(reg, roomId).0.Some? && Seated(Get(reg, roomId).0.value.players, id) ==>
      r.1 == Get(reg, roomId).1
    ensures Get(reg, roomId).0.None? ==>
      roomId in r.1.pending && r.1.pending[roomId] == r.1.cache[roomId]
    ensures (maxPlayers.None? || maxPlayers == Some(0)) && !Seated(Open(reg, roomId, id, maxPlayers).0.players, id) ==>
      roomId in r.1.pending && r.1.pending[roomId] == r.1.cache[roomId]
    ensures r.1.store == reg.store
  {
    var fetched := Open(reg, roomId, id, maxPlayers);
    Enter(fetched.1, roomId, id, name, maxPlayers)
  }

  /** The second step of joinGameRoom, on the room the registry caches:
      seat the player unless seated, and save the room when no room size
      was passed or change it in place otherwise */
  function Enter(reg: Rooms, roomId: string, id: string, name: string, maxPlayers: Option<int>): (r: (GameState, Rooms))
    requires roomId in reg.cache
    ensures roomId in r.1.cache && r.1.cache[roomId] == Seat(reg.cache[roomId], id, name)
    ensures r.0 == JoinView(r.1.cache[roomId])
    ensures Seated(reg.cache[roomId].players, id) ==> r.1 == reg
    ensures (maxPlayers.None? || maxPlayers == Some(0)) && !Seated(reg.cache[roomId].players, id) ==>
      r.1 == Set(reg, roomId, r.1.cache[roomId])
    ensures !(maxPlayers.None? || maxPlayers == Some(0)) && !Seated(reg.cache[roomId].players, id) ==>
      r.1 == UpdateInPlace(reg, roomId, r.1.cache[roomId])
  {
    var room := reg.cache[roomId];
    if Seated(room.players, id) then (JoinView(room), reg)
    else
      var seated := Seat(room, id, name);
      var reg2 := if maxPlayers.None? || maxPlayers == Some(0) then Set(reg, roomId, seated)
                  else UpdateInPlace(reg, roomId, seated);
      (JoinView(seated), reg2)
  }

  /** Joining again with the same id changes nothing: the cached room and
      the report are the same as after the first join. */
  lemma JoinTwice(reg: Rooms, roomId: string, id: string, name: string, name2: string, m: Option<int>, m2: Option<int>)
    ensures var first := Join(reg, roomId, id, name, m);
      var second := Join(first.1, roomId, id, name2, m2);
      second.1.cache[roomId] == first.1.cache[roomId] && second.0 == first.0
  {
  }

  /** Joining never turns a player away: however full the room, an unseated
      player gets the next seat. */
  lemma JoinNeverFull(reg: Rooms, roomId: string, id: string, name: string, m: Option<int>)
    requires Get(reg, roomId).0.Some? && !Seated(Get(reg, roomId).0.value.players, id)
    ensures var room := Get(reg, roomId).0.value;
      Join(reg, roomId, id, name, m).1.cache[roomId].players == room.players + [NewSeat(id, name)]
  {
  }

  /* ---------------------------------------------------------------------
     createGame
     --------------------------------------------------------------------- */

  /** createGame(roomId): None for a room that is not found (the source
      throws); otherwise createGame's outcome, with a started game saved. */
  function StartRoom(reg: Rooms, roomId: string, rng: Rng): (r: (Option<StartResult>, Rooms))
    ensures r.0.None? <==> Get(reg, roomId).0.None?
    ensures r.0.Some? ==> r.0.value == CreateGame(Get(reg, roomId).0.value, rng)
    ensures r.0.Some? && r.0.value.Begun? ==> r.1 == Set(Get(reg, roomId).1, roomId, r.0.value.game)
    ensures !(r.0.Some? && r.0.value.Begun?) ==> r.1 == Get(reg, roomId).1
  {
    var got := Get(reg, roomId);
    match got.0
    case None => (None, got.1)
    case Some(room) =>
      var res := CreateGame(room, rng);
      if res.Begun? then (Some(res), Set(got.1, roomId, res.game))
      else (Some(res), got.1)
  }

  /* ---------------------------------------------------------------------
     playCard, drawCard, callUno
     --------------------------------------------------------------------- */

  /** playCard(roomId, ...): a missing room or a rejected move gives null
      and saves nothing; an accepted move is saved. */
  function PlayMove(reg: Rooms, roomId: string, id: string, card: Card, chosen: Option<Color>, rng: Rng): (r: (Option<GameState>, Rooms))
    requires Healthy(reg)
    ensures Get(reg, roomId).0.None? ==> r.0.None?
    ensures Get(reg, roomId).0.Some? ==> r.0 == PlayCard(Get(reg, roomId).0.value, id, card, chosen, rng)
    ensures r.1 == Commit(Get(reg, roomId).1, roomId, r.0)
  {
    GetHealthy(reg, roomId);
    var got := Get(reg, roomId);
    match got.0
    case None => (None, got.1)
    case Some(room) =>
      var res := PlayCard(room, id, card, chosen, rng);
      (res, Commit(got.1, roomId, res))
  }

  /** drawCard(roomId, playerId), fetched and saved the same way */
  function DrawMove(reg: Rooms, roomId: string, id: string, rng: Rng): (r: (Option<GameState>, Rooms))
    requires Healthy(reg)
    ensures Get(reg, roomId).0.None? ==> r.0.None?
    ensures Get(reg, roomId).0.Some? ==> r.0 == DrawCard(Get(reg, roomId).0.value, id, rng)
    ensures r.1 == Commit(Get(reg, roomId).1, roomId, r.0)
  {
    GetHealthy(reg, roomId);
    var got := Get(reg, roomId);
    match got.0
    case None => (None, got.1)
    case Some(room) =>
      var res := DrawCard(room, id, rng);
      (res, Commit(got.1, roomId, res))
  }

  /** callUno(roomId, playerId), fetched and saved the same way */
  function UnoMove(reg: Rooms, roomId: string, id: string): (r: (Option<GameState>, Rooms))
    ensures Get(reg, roomId).0.None? ==> r.0.None?
    ensures Get(reg, roomId).0.Some? ==> r.0 == CallUno(Get(reg, roomId).0.value, id)
    ensures r.1 == Commit(Get(reg, roomId).1, roomId, r.0)
  {
    var got := Get(reg, roomId);
    match got.0
    case None => (None, got.1)
    case Some(room) =>
      var res := CallUno(room, id);
      (res, Commit(got.1, roomId, res))
  }

  /* ---------------------------------------------------------------------
     removePlayer
     --------------------------------------------------------------------- */

  /** removePlayer(roomId, playerId): a missing room or player changes
      nothing; the last player leaving deletes the room; otherwise the
      smaller room is saved. */
  function Remove(reg: Rooms, roomId: string, id: string): (r: Rooms)
    requires Healthy(reg)
    ensures Get(reg, roomId).0.None? ==> r == Get(reg, roomId).1
    ensures Get(reg, roomId).0.Some? ==>
      match RemovePlayer(Get(reg, roomId).0.value, id)
      case NotSeated => r == Get(reg, roomId).1
      case Emptied => r == Delete(Get(reg, roomId).1, roomId)
      case Remaining(g') => r == Set(Get(reg, roomId).1, roomId, g')
  {
    GetHealthy(reg, roomId);
    var got := Get(reg, roomId);
    match got.0
    case None => got.1
    case Some(room) =>
      match RemovePlayer(room, id)
      case NotSeated => got.1
      case Emptied => Delete(got.1, roomId)
      case Remaining(g') => Set(got.1, roomId, g')
  }

  /** When the last player leaves, the room is gone for every later fetch */
  lemma LastLeaverDeletes(reg: Rooms, roomId: string, id: string)
    requires Healthy(reg)
    requires Get(reg, roomId).0.Some? && RemovePlayer(Get(reg, roomId).0.value, id).Emptied?
    ensures Get(Remove(reg, roomId, id), roomId).0.None?
  {
  }

  /* ---------------------------------------------------------------------
     What the service keeps
     --------------------------------------------------------------------- */

  /** The registry is healthy and coherent */
  ghost predicate Sound(reg: Rooms) {
    Healthy(reg) && Coherent(reg)
  }

  /** A card to instantiate the conservation half of CallUnoKeeps with */
  const AnyCard := Card(Red, Number, Num(0))

  /** Joining keeps the registry sound. It keeps every cached room saved or
      pending only when no room size is passed: with one, the seat is added
      to the cached room in place (InPlaceChangeUnsaved). */
  lemma JoinKeepsSound(reg: Rooms, roomId: string, id: string, name: string, maxPlayers: Option<int>)
    requires Sound(reg)
    ensures Sound(Join(reg, roomId, id, name, maxPlayers).1)
    ensures Saved(reg) && (maxPlayers.None? || maxPlayers == Some(0)) ==>
      Saved(Join(reg, roomId, id, name, maxPlayers).1)
  {
    OpenKeepsSound(reg, roomId, id, maxPlayers);
    EnterKeepsSound(Open(reg, roomId, id, maxPlayers).1, roomId, id, name, maxPlayers);
  }

  /** The seating step keeps the registry sound, and saved when the room
      is saved by it or left alone */
  lemma EnterKeepsSound(reg: Rooms, roomId: string, id: string, name: string, maxPlayers: Option<int>)
    requires Sound(reg) && roomId in reg.cache
    ensures Sound(Enter(reg, roomId, id, name, maxPlayers).1)
    ensures Saved(reg) && (maxPlayers.None? || maxPlayers == Some(0)) ==>
      Saved(Enter(reg, roomId, id, name, maxPlayers).1)
  {
    var seated := Seat(reg.cache[roomId], id, name);
    SeatKeepsInvariants(reg.cache[roomId], id, name);
    WritesKeepHealthy(reg, roomId, seated);
    OpsKeepCoherent(reg, roomId, seated);
    if Saved(reg) {
      OpsKeepSaved(reg, roomId, seated);
    }
  }

  /** Fetching or creating the room keeps the registry sound and saved */
  lemma OpenKeepsSound(reg: Rooms, roomId: string, id: string, maxPlayers: Option<int>)
    requires Sound(reg)
    ensures Sound(Open(reg, roomId, id, maxPlayers).1)
    ensures WellFormed(Open(reg, roomId, id, maxPlayers).0)
    ensures Saved(reg) ==> Saved(Open(reg, roomId, id, maxPlayers).1)
  {
    GetKeepsSound(reg, roomId);
    CommitKeepsSound(Get(reg, roomId).1, roomId, Some(NewRoom(roomId, id, maxPlayers)));
  }

  /** The exception: a newcomer joining a saved room with a room size
      passed changes only the cached room, and a restart would lose the
      seat. */
  lemma JoinWithSizeLeavesUnsaved(reg: Rooms, roomId: string, id: string, name: string, maxPlayers: Option<int>)
    requires Saved(reg)
    requires roomId in reg.cache && roomId !in reg.pending
    requires !Seated(reg.cache[roomId].players, id)
    requires maxPlayers.Some? && maxPlayers.value != 0
    ensures !Saved(Join(reg, roomId, id, name, maxPlayers).1)
  {
    var room := reg.cache[roomId];
    var seated := Seat(room, id, name);
    assert |seated.players| == |room.players| + 1;
    InPlaceChangeUnsaved(reg, roomId, seated);
  }

  /** Starting a game keeps the registry sound and saved */
  lemma StartRoomKeepsSound(reg: Rooms, roomId: string, rng: Rng)
    requires Sound(reg)
    ensures Sound(StartRoom(reg, roomId, rng).1)
    ensures Saved(reg) ==> Saved(StartRoom(reg, roomId, rng).1)
  {
    var got := Get(reg, roomId);
    GetKeepsSound(reg, roomId);
    if got.0.Some? {
      var res := CreateGame(got.0.value, rng);
      if res.Begun? {
        CreateGameWellFormed(got.0.value, rng);
        CommitKeepsSound(got.1, roomId, Some(res.game));
      }
    }
  }

  /** A room, to instantiate the lemmas whose value is irrelevant */
  const AnyGame := NewRoom("", "", None)

  /** Writing a valid room, in any of the three ways, deleting one, or a
      save timer firing keeps the registry healthy */
  lemma WritesKeepHealthy(reg: Rooms, id: string, v: GameState)
    requires Healthy(reg) && Valid(v)
    ensures Healthy(Set(reg, id, v))
    ensures Healthy(Delete(reg, id))
    ensures Healthy(Fire(reg, id))
    ensures id in reg.cache ==> Healthy(UpdateInPlace(reg, id, v))
  {
  }

  /** A save timer firing keeps the registry sound and saved */
  lemma FireKeepsSound(reg: Rooms, id: string)
    requires Sound(reg)
    ensures Sound(Fire(reg, id))
    ensures Saved(reg) ==> Saved(Fire(reg, id))
  {
    WritesKeepHealthy(reg, id, AnyGame);
    OpsKeepCoherent(reg, id, AnyGame);
    if Saved(reg) {
      OpsKeepSaved(reg, id, AnyGame);
    }
  }

  /** Committing a valid result keeps the registry sound and saved */
  lemma CommitKeepsSound(reg: Rooms, roomId: string, res: Option<GameState>)
    requires Sound(reg)
    requires res.Some? ==> Valid(res.value)
    ensures Sound(Commit(reg, roomId, res))
    ensures Saved(reg) ==> Saved(Commit(reg, roomId, res))
  {
    if res.Some? {
      WritesKeepHealthy(reg, roomId, res.value);
      OpsKeepCoherent(reg, roomId, res.value);
      if Saved(reg) {
        OpsKeepSaved(reg, roomId, res.value);
      }
    }
  }

  /** A fetch keeps the registry sound and saved */
  lemma GetKeepsSound(reg: Rooms, roomId: string)
    requires Sound(reg)
    ensures Sound(Get(reg, roomId).1)
    ensures Saved(reg) ==> Saved(Get(reg, roomId).1)
  {
    GetHealthy(reg, roomId);
    OpsKeepCoherent(reg, roomId, AnyGame);
    if Saved(reg) {
      OpsKeepSaved(reg, roomId, AnyGame);
    }
  }

  /** playCard keeps the registry sound and saved */
  lemma PlayMoveKeepsSound(reg: Rooms, roomId: string, id: string, card: Card, chosen: Option<Color>, rng: Rng)
    requires Sound(reg)
    ensures Sound(PlayMove(reg, roomId, id, card, chosen, rng).1)
    ensures Saved(reg) ==> Saved(PlayMove(reg, roomId, id, card, chosen, rng).1)
  {
    var got := Get(reg, roomId);
    GetKeepsSound(reg, roomId);
    if got.0.Some? {
      var res := PlayCard(got.0.value, id, card, chosen, rng);
      if res.Some? {
        PlayCardKeepsWellFormed(got.0.value, id, card, chosen, rng);
        PlayCardKeepsStack(got.0.value, id, card, chosen, rng);
      }
      CommitKeepsSound(got.1, roomId, res);
    }
  }

  /** drawCard keeps the registry sound and saved */
  lemma DrawMoveKeepsSound(reg: Rooms, roomId: string, id: string, rng: Rng)
    requires Sound(reg)
    ensures Sound(DrawMove(reg, roomId, id, rng).1)
    ensures Saved(reg) ==> Saved(DrawMove(reg, roomId, id, rng).1)
  {
    var got := Get(reg, roomId);
    GetKeepsSound(reg, roomId);
    if got.0.Some? {
      DrawCardKeepsWellFormed(got.0.value, id, rng);
      DrawCardKeepsStack(got.0.value, id, rng);
      CommitKeepsSound(got.1, roomId, DrawCard(got.0.value, id, rng));
    }
  }

  /** callUno keeps the registry sound and saved */
  lemma UnoMoveKeepsSound(reg: Rooms, roomId: string, id: string)
    requires Sound(reg)
    ensures Sound(UnoMove(reg, roomId, id).1)
    ensures Saved(reg) ==> Saved(UnoMove(reg, roomId, id).1)
  {
    var got := Get(reg, roomId);
    GetKeepsSound(reg, roomId);
    if got.0.Some? {
      var res := CallUno(got.0.value, id);
      if res.Some? {
        CallUnoKeeps(got.0.value, id, AnyCard);
      }
      CommitKeepsSound(got.1, roomId, res);
    }
  }

  /** removePlayer keeps the registry sound and saved */
  lemma RemoveKeepsSound(reg: Rooms, roomId: string, id: string)
    requires Sound(reg)
    ensures Sound(Remove(reg, roomId, id))
    ensures Saved(reg) ==> Saved(Remove(reg, roomId, id))
  {
    var got := Get(reg, roomId);
    GetKeepsSound(reg, roomId);
    if got.0.Some? {
      var room := got.0.value;
      RemoveKeepsWellFormed(room, id);
      var res := RemovePlayer(room, id);
      WritesKeepHealthy(got.1, roomId, if res.Remaining? then res.game else room);
      OpsKeepCoherent(got.1, roomId, if res.Remaining? then res.game else room);
      if Saved(reg) {
        OpsKeepSaved(got.1, roomId, if res.Remaining? then res.game else room);
      }
    }
  }
}

=== FILE: seating.dfy ===
/**
 * Seating in server/src/game/gameLogic.ts: the room `joinGameRoom` creates,
 * the seat it adds, the `started` flag it reports, and `removePlayer`,
 * which closes a seat and repairs the turn index. How the room is fetched
 * and stored is the registry's business (RoomService).
 */
module Seating {
  import opened Wrappers
  import opened GameType

  /** The room joinGameRoom creates for an unknown id: no seats, turn index
      0 naming the joining player, clockwise, empty piles, red, no stack,
      not started; `maxPlayers ?? 4`, so only an absent value becomes 4. */
  function NewRoom(roomId: string, firstId: string, maxPlayers: Option<int>): (r: GameState)
    ensures r.roomId == roomId && r.players == [] && r.currentPlayerIndex == 0
    ensures r.currentPlayer == firstId && r.direction == 1
    ensures r.deck == [] && r.discardPile == [] && r.currentColor == Red
    ensures r.drawStack == 0 && !r.started && r.winner.None?
    ensures maxPlayers.None? ==> r.maxPlayers == 4
    ensures maxPlayers.Some? ==> r.maxPlayers == maxPlayers.value
    ensures WellFormed(r) && UniqueIds(r.players)
  {
    GameState(roomId, [], 0, firstId, 1, [], [], Red, 0, maxPlayers.GetOr(4), None, false)
  }

  /** The seat a newcomer gets: empty hand, no UNO call */
  function NewSeat(id: string, name: string): Player {
    Player(id, name, [], false)
  }

  /** The seating step of joinGameRoom: a seated id changes nothing, any
      other id is seated last, whatever maxPlayers says. */
  function Seat(room: GameState, id: string, name: string): (r: GameState)
    ensures Seated(room.players, id) ==> r == room
    ensures !Seated(room.players, id) ==> r == room.(players := room.players + [NewSeat(id, name)])
    ensures Seated(r.players, id)
  {
    if Seated(room.players, id) then room
    else
      var r := room.(players := room.players + [NewSeat(id, name)]);
      assert r.players[|room.players|].id == id;
      r
  }

  /** The copy joinGameRoom returns: the room, reported as started once the
      table is full */
  function JoinView(room: GameState): (v: GameState)
    ensures v.started <==> room.started || |room.players| == room.maxPlayers
    ensures v.(started := room.started) == room
  {
    room.(started := room.started || |room.players| == room.maxPlayers)
  }

  /** Seating keeps the invariant and keeps ids unique */
  lemma SeatKeepsInvariants(room: GameState, id: string, name: string)
    ensures WellFormed(room) ==> WellFormed(Seat(room, id, name))
    ensures UniqueIds(room.players) ==> UniqueIds(Seat(room, id, name).players)
    ensures StackOk(room) ==> StackOk(Seat(room, id, name))
  {
    if !Seated(room.players, id) && UniqueIds(room.players) {
      var ps := Seat(room, id, name).players;
      forall i, j | 0 <= i < j < |ps|
        ensures ps[i].id != ps[j].id
      {
        if j == |room.players| {
          assert ps[i] == room.players[i];
        }
      }
    }
  }

  /** Seating never changes which cards the room owns */
  lemma SeatKeepsCards(room: GameState, id: string, name: string, c: Card)
    ensures Owned(Seat(room, id, name), c) == Owned(room, c)
  {
    if !Seated(room.players, id) {
      HandCountAppend(room.players, NewSeat(id, name), c);
    }
  }

  /* ---------------------------------------------------------------------
     removePlayer
     --------------------------------------------------------------------- */

  /** What removePlayer does to a room: nothing (id not seated), delete it
      (its last seat closed), or store the smaller room */
  datatype Removal = NotSeated | Emptied | Remaining(game: GameState)

  /** The index after closing seat k in a table of n seats that had the
      turn at i */
  function RepairedIndex(i: int, k: nat, n: nat): (r: int)
    requires n > 0 && 0 <= i <= n && k <= n
    ensures 0 <= r < n
    ensures i == k ==> r == if k == n then 0 else k
    ensures i > k ==> r == i - 1
    ensures i < k ==> r == i
  {
    if i == k then ModSmall(i + n, n); (i + n) % n
    else if i > k then i - 1
    else i
  }

  /** removePlayer(roomId, playerId): close the first seat holding `id`.
      The player who had the turn keeps it; if it was the closed seat, the
      turn passes to the seat after it, wrapping to seat 0. A started game
      left with one player ends, with that player as winner. */
  function RemovePlayer(g: GameState, id: string): (r: Removal)
    requires TurnInRange(g)
    ensures r.NotSeated? <==> !Seated(g.players, id)
    ensures r.Emptied? <==> Seated(g.players, id) && |g.players| == 1
    ensures r.Remaining? ==>
      var k := FindPlayer(g.players, id).value;
      var g' := r.game;
      && g'.players == RemoveAt(g.players, k)
      && TurnInRange(g')
      && g'.currentPlayer == g'.players[g'.currentPlayerIndex].id
      && (k != g.currentPlayerIndex ==> g'.players[g'.currentPlayerIndex] == g.players[g.currentPlayerIndex])
      && (k < g.currentPlayerIndex ==> g'.currentPlayerIndex == g.currentPlayerIndex - 1)
      && (k > g.currentPlayerIndex ==> g'.currentPlayerIndex == g.currentPlayerIndex)
      && (k == g.currentPlayerIndex ==>
            g'.currentPlayerIndex == if k == |g'.players| then 0 else k)
      && (g.started && |g'.players| < 2 ==> !g'.started && g'.winner == Some(g'.players[0]))
      && (!(g.started && |g'.players| < 2) ==> g'.started == g.started && g'.winner == g.winner)
      && g' == g.(players := g'.players, currentPlayerIndex := g'.currentPlayerIndex,
                  currentPlayer := g'.currentPlayer, started := g'.started, winner := g'.winner)
  {
    match FindPlayer(g.players, id)
    case None => NotSeated
    case Some(k) =>
      var ps := RemoveAt(g.players, k);
      if |ps| == 0 then Emptied
      else
        var i := RepairedIndex(g.currentPlayerIndex, k, |ps|);
        var g1 := g.(players := ps, currentPlayerIndex := i, currentPlayer := ps[i].id);
        if g.started && |ps| < 2 then Remaining(g1.(started := false, winner := Some(ps[0])))
        else Remaining(g1)
  }

  /** removePlayer keeps the invariant */
  lemma RemoveKeepsWellFormed(g: GameState, id: string)
    requires WellFormed(g)
    ensures RemovePlayer(g, id).Remaining? ==> WellFormed(RemovePlayer(g, id).game)
    ensures RemovePlayer(g, id).Remaining? && StackOk(g) ==> StackOk(RemovePlayer(g, id).game)
  {
  }

  /** removePlayer keeps seat ids unique */
  lemma RemoveKeepsUniqueIds(g: GameState, id: string)
    requires TurnInRange(g) && UniqueIds(g.players)
    ensures RemovePlayer(g, id).Remaining? ==> UniqueIds(RemovePlayer(g, id).game.players)
  {
    var r := RemovePlayer(g, id);
    if r.Remaining? {
      var k := FindPlayer(g.players, id).value;
      var ps := r.game.players;
      forall i, j | 0 <= i < j < |ps|
        ensures ps[i].id != ps[j].id
      {
        var i0 := if i < k then i else i + 1;
        var j0 := if j < k then j else j + 1;
        assert ps[i] == g.players[i0] && ps[j] == g.players[j0];
      }
    }
  }

  /** The closed seat's hand leaves the game with its player; no other card
      moves. */
  lemma RemoveDropsHand(g: GameState, id: string, c: Card)
    requires TurnInRange(g)
    requires RemovePlayer(g, id).Remaining?
    ensures Owned(RemovePlayer(g, id).game, c) + Count(g.players[FindPlayer(g.players, id).value].hand, c)
            == Owned(g, c)
  {
    HandCountRemove(g.players, FindPlayer(g.players, id).value, c);
  }
}

=== FILE: shuffle.dfy ===
/**
 * `shuffleDeck` of server/src/game/gameLogic.ts: an in-place Fisher–Yates
 * shuffle, here a pure function of the sequence and a random stream.
 */
module Shuffling {
  import opened GameType

  function Swap<T>(s: seq<T>, i: nat, j: nat): (r: seq<T>)
    requires i < |s| && j < |s|
    ensures |r| == |s| && multiset(r) == multiset(s)
    ensures r[i] == s[j] && r[j] == s[i]
    ensures forall k :: 0 <= k < |s| && k != i && k != j ==> r[k] == s[k]
  {
    s[i := s[j]][j := s[i]]
  }

  /** A random index below `bound`: the stream value at `pos`, reduced below `bound` */
  function Pick(rng: Rng, pos: nat, bound: nat): (j: nat)
    requires bound > 0
    ensures j < bound
  {
    rng(pos) % bound
  }

  /** The loop of shuffleDeck from index `i` down to 1: step i swaps s[i]
      with s[Pick(rng, pos, i + 1)].
      Returns the shuffled sequence and the next unread stream position. */
  function ShuffleFrom<T>(s: seq<T>, i: int, rng: Rng, pos: nat): (r: (seq<T>, nat))
    requires i < |s|
    ensures |r.0| == |s| && multiset(r.0) == multiset(s)
    ensures forall k :: 0 <= k < |s| && i < k ==> r.0[k] == s[k]
    ensures r.1 == pos + (if i > 0 then i else 0)
    decreases i
  {
    if i <= 0 then (s, pos)
    else ShuffleFrom(Swap(s, i, Pick(rng, pos, i + 1)), i - 1, rng, pos + 1)
  }

  /** shuffleDeck: a permutation of its input, for every length including 0 and 1 */
  function Shuffle<T>(s: seq<T>, rng: Rng, pos: nat): (r: (seq<T>, nat))
    ensures |r.0| == |s| && multiset(r.0) == multiset(s)
    ensures |s| <= 1 ==> r.0 == s
    ensures r.1 == pos + (if |s| > 0 then |s| - 1 else 0)
  {
    ShuffleFrom(s, |s| - 1, rng, pos)
  }
}

=== FILE: start.dfy ===
/**
 * `createGame` of server/src/game/gameLogic.ts: deal seven cards to every
 * seat from a fresh deck, turn up a first non-wild card, and start play.
 */
module Start {
  import opened Wrappers
  import opened GameType
  import opened Deck
  import opened Draw

  /* ---------------------------------------------------------------------
     Dealing
     --------------------------------------------------------------------- */

  /** The seats after dealing, the piles left and the next stream position */
  datatype Deal = Deal(seats: seq<Player>, piles: Piles, pos: nat)

  /** The deal: seat by seat, in order, each seat keeps its id and name,
      gets its own seven draws from the shared piles and a cleared UNO
      call. */
  function DealHands(players: seq<Player>, p: Piles, rng: Rng, pos: nat): (r: Deal)
    ensures |r.seats| == |players|
    ensures forall i :: 0 <= i < |players| ==>
      r.seats[i] == players[i].(hand := r.seats[i].hand, calledUno := false)
    decreases |players|
  {
    if |players| == 0 then Deal([], p, pos)
    else
      var d := DrawCards(p, 7, rng, pos);
      var rest := DealHands(players[1..], d.piles, rng, d.pos);
      var seat := players[0].(hand := d.cards, calledUno := false);
      Deal([seat] + rest.seats, rest.piles, rest.pos)
  }

  /** The deal takes 7 cards per seat while they last, each seat getting all
      seven when enough are left, and never touches an empty discard pile. */
  lemma {:induction false} DealSizes(players: seq<Player>, p: Piles, rng: Rng, pos: nat)
    ensures Avail(DealHands(players, p, rng, pos).piles) == Max(Avail(p) - 7 * |players|, 0)
    ensures Avail(p) >= 7 * |players| ==>
      forall i :: 0 <= i < |players| ==> |DealHands(players, p, rng, pos).seats[i].hand| == 7
    ensures p.discard == [] ==> DealHands(players, p, rng, pos).piles.discard == []
    decreases |players|
  {
    if |players| > 0 {
      var d := DrawCards(p, 7, rng, pos);
      var rest := DealHands(players[1..], d.piles, rng, d.pos);
      DealSizes(players[1..], d.piles, rng, d.pos);
      var r := DealHands(players, p, rng, pos);
      assert r.seats == [players[0].(hand := d.cards, calledUno := false)] + rest.seats;
      assert r.piles == rest.piles;
      if Avail(p) >= 7 * |players| {
        assert |d.cards| == 7 && Avail(d.piles) == Avail(p) - 7;
        forall i | 0 <= i < |players|
          ensures |r.seats[i].hand| == 7
        {
          if i > 0 {
            assert r.seats[i] == rest.seats[i - 1];
          }
        }
      }
    }
  }

  /** The deal draws from the deck alone while it lasts, and an empty
      discard pile stays empty */
  lemma {:induction false} DealLeavesDiscard(players: seq<Player>, p: Piles, rng: Rng, pos: nat)
    requires p.discard == []
    ensures DealHands(players, p, rng, pos).piles.discard == []
    decreases |players|
  {
    DealSizes(players, p, rng, pos);
  }

  /** Dealing only moves cards from the piles into the hands */
  lemma {:induction false} DealConserves(players: seq<Player>, p: Piles, rng: Rng, pos: nat, c: Card)
    ensures var r := DealHands(players, p, rng, pos); PileCount(r.piles, c) + HandCount(r.seats, c) == PileCount(p, c)
    decreases |players|
  {
    if |players| > 0 {
      var d := DrawCards(p, 7, rng, pos);
      var rest := DealHands(players[1..], d.piles, rng, d.pos);
      DrawCardsConserves(p, 7, rng, pos, c);
      DealConserves(players[1..], d.piles, rng, d.pos, c);
      var r := DealHands(players, p, rng, pos);
      assert r.seats[1..] == rest.seats;
    }
  }

  /* ---------------------------------------------------------------------
     Turning up the first card
     --------------------------------------------------------------------- */

  /** How the first-card loop ends: with a non-wild card face up and the
      deck it leaves, or not at all: an empty deck makes the source read a
      field of `undefined` and throw, and a deck of only wild cards makes it
      loop forever. */
  datatype Flip = Flipped(first: Card, deck: seq<Card>) | EmptyDeck | OnlyWilds

  predicate AllWild(s: seq<Card>) {
    forall k :: 0 <= k < |s| ==> s[k].color == Wild
  }

  /** The position of the last non-wild card of `s`, if any */
  function LastNonWild(s: seq<Card>): (r: Option<nat>)
    ensures r.None? <==> AllWild(s)
    ensures r.Some? ==> r.value < |s| && s[r.value].color != Wild && AllWild(s[r.value + 1..])
  {
    if |s| == 0 then None
    else if Last(s).color != Wild then Some(|s| - 1)
    else
      var r := LastNonWild(s[..|s| - 1]);
      if r.Some? then
        DropLast(s, r.value);
        r
      else
        DropLastWild(s);
        r
  }

  /** The slices of `s` around `j` are those of `s` without its last card,
      with the last card put back after `j` */
  lemma DropLast(s: seq<Card>, j: nat)
    requires j < |s| - 1
    ensures s[..|s| - 1][j] == s[j]
    ensures s[j + 1..] == s[..|s| - 1][j + 1..] + [Last(s)]
    ensures s[..|s| - 1][..j] == s[..j]
  {
  }

  /** A deck whose last card is wild is all wild when the rest is */
  lemma DropLastWild(s: seq<Card>)
    requires |s| > 0 && Last(s).color == Wild
    ensures AllWild(s) <==> AllWild(s[..|s| - 1])
  {
    assert forall k :: 0 <= k < |s| - 1 ==> s[k] == s[..|s| - 1][k];
  }

  /** The first-card loop, which pops the top card and, while it is wild,
      puts it at the bottom and pops again, on the deck `moved + rest`,
      where `moved` are the wild cards already put at the bottom. It turns
      up the last non-wild card of `rest`; the wild cards above it go to the
      bottom in their order. */
  function FlipLoop(moved: seq<Card>, rest: seq<Card>): (r: Flip)
    requires AllWild(moved)
    ensures r.EmptyDeck? <==> |moved| == 0 && |rest| == 0
    ensures r.OnlyWilds? <==> |moved| + |rest| > 0 && LastNonWild(rest).None?
    ensures r.Flipped? ==> (LastNonWild(rest).Some? &&
      var j := LastNonWild(rest).value;
      r.first == rest[j] && r.deck == rest[j + 1..] + moved + rest[..j])
    decreases |rest|
  {
    if |rest| == 0 then (if |moved| == 0 then EmptyDeck else OnlyWilds)
    else
      var n := |rest|;
      var top := rest[n - 1];
      if top.color == Wild then
        var r := FlipLoop([top] + moved, rest[..n - 1]);
        if r.Flipped? then
          var j := LastNonWild(rest[..n - 1]).value;
          DropLast(rest, j);
          assert rest[..n - 1][j + 1..] + ([top] + moved) == rest[j + 1..] + moved;
          r
        else r
      else Flipped(top, moved + rest[..n - 1])
  }

  /** The first-card loop on the whole deck: it fails only on an empty or
      all-wild deck; otherwise it turns up the last non-wild card and moves
      the wild cards above it to the bottom, losing no card. */
  function FlipStarter(deck: seq<Card>): (r: Flip)
    ensures r.EmptyDeck? <==> |deck| == 0
    ensures r.OnlyWilds? <==> |deck| > 0 && AllWild(deck)
    ensures r.Flipped? ==> r.first.color != Wild && |r.deck| == |deck| - 1
    ensures r.Flipped? ==> (LastNonWild(deck).Some? &&
      var j := LastNonWild(deck).value;
      r.first == deck[j] && r.deck == deck[j + 1..] + deck[..j])
  {
    var r := FlipLoop([], deck);
    if r.Flipped? then
      var j := LastNonWild(deck).value;
      assert deck[j + 1..] + [] + deck[..j] == deck[j + 1..] + deck[..j];
      r
    else r
  }

  /** The flip keeps every card: the one turned up plus the deck left */
  lemma FlipConserves(deck: seq<Card>, c: Card)
    requires FlipStarter(deck).Flipped?
    ensures Count(FlipStarter(deck).deck, c) + Count([FlipStarter(deck).first], c) == Count(deck, c)
  {
    var j := LastNonWild(deck).value;
    assert deck == deck[..j] + ([deck[j]] + deck[j + 1..]);
    CountConcat(deck[j + 1..], deck[..j], c);
    CountConcat(deck[..j], [deck[j]] + deck[j + 1..], c);
    CountConcat([deck[j]], deck[j + 1..], c);
  }

  /* ---------------------------------------------------------------------
     createGame
     --------------------------------------------------------------------- */

  /** What createGame does with a room it found: throw for fewer than two
      players, hand back a room that already has a deck untouched, fail in
      the first-card loop (DeckExhausted: it throws; OnlyWildsLeft: it never
      returns), or start the game. */
  datatype StartResult =
    | TooFewPlayers
    | AlreadyDealt(game: GameState)
    | DeckExhausted
    | OnlyWildsLeft
    | Begun(game: GameState)

  /** The part of createGame after createDeck, given the shuffled deck and
      the next unread position of the random stream: seven draws for each
      seat in order, then a non-wild first card face up giving the colour,
      seat 0 to play clockwise with no stack; roomId, currentPlayer,
      maxPlayers and winner are kept. */
  function DealAndFlip(g: GameState, shuffled: seq<Card>, rng: Rng, pos: nat): (r: StartResult)
    ensures !r.TooFewPlayers? && !r.AlreadyDealt?
    ensures r.Begun? ==>
      var g' := r.game;
      && |g'.players| == |g.players|
      && (forall i :: 0 <= i < |g.players| ==>
            g'.players[i] == g.players[i].(hand := g'.players[i].hand, calledUno := false))
      && |g'.discardPile| == 1 && g'.discardPile[0].color != Wild
      && g'.currentColor == g'.discardPile[0].color
      && g'.currentPlayerIndex == 0 && g'.direction == 1 && g'.drawStack == 0 && g'.started
      && g'.roomId == g.roomId && g'.currentPlayer == g.currentPlayer
      && g'.maxPlayers == g.maxPlayers && g'.winner == g.winner
  {
    var d := DealHands(g.players, Piles(shuffled, []), rng, pos);
    match FlipStarter(d.piles.deck)
    case EmptyDeck => DeckExhausted
    case OnlyWilds => OnlyWildsLeft
    case Flipped(first, rest) =>
      Begun(g.(players := d.seats, currentPlayerIndex := 0, direction := 1, deck := rest,
               discardPile := [first], currentColor := first.color, drawStack := 0, started := true))
  }

  /** createGame on a room: fewer than two players throw, a room with a
      deck comes back as it is, and otherwise createDeck's deck (from the
      start of the random stream) is dealt. */
  function CreateGame(g: GameState, rng: Rng): (r: StartResult)
    ensures r.TooFewPlayers? <==> |g.players| < 2
    ensures r.AlreadyDealt? <==> |g.players| >= 2 && |g.deck| > 0
    ensures r.AlreadyDealt? ==> r.game == g
    ensures r.Begun? ==>
      var g' := r.game;
      && |g'.players| == |g.players|
      && (forall i :: 0 <= i < |g.players| ==>
            g'.players[i] == g.players[i].(hand := g'.players[i].hand, calledUno := false))
      && |g'.discardPile| == 1 && g'.discardPile[0].color != Wild
      && g'.currentColor == g'.discardPile[0].color
      && g'.currentPlayerIndex == 0 && g'.direction == 1 && g'.drawStack == 0 && g'.started
      && g'.roomId == g.roomId && g'.currentPlayer == g.currentPlayer
      && g'.maxPlayers == g.maxPlayers && g'.winner == g.winner
  {
    if |g.players| < 2 then TooFewPlayers
    else if |g.deck| > 0 then AlreadyDealt(g)
    else
      var cd := CreateDeck(rng, 0);
      DealAndFlip(g, cd.0, rng, cd.1)
  }

  /** A sequence drawn from two values is as long as their two counts */
  lemma {:induction false} TwoValued<T>(s: seq<T>, a: T, b: T)
    requires a != b
    requires forall k :: 0 <= k < |s| ==> s[k] == a || s[k] == b
    ensures |s| == Count(s, a) + Count(s, b)
  {
    if |s| > 0 {
      TwoValued(s[1..], a, b);
    }
  }

  lemma CountPositive<T>(s: seq<T>, k: nat)
    requires k < |s|
    ensures Count(s, s[k]) >= 1
  {
    CountIsMultiset(s, s[k]);
  }

  /** A deck that holds no card more often than a standard deck has at most
      8 wild-coloured cards, so it is not all wild once it has more. */
  lemma FewWilds(s: seq<Card>)
    requires forall c :: Count(s, c) <= ExpectedCount(c)
    requires |s| > 8
    ensures !AllWild(s)
  {
    if AllWild(s) {
      forall k | 0 <= k < |s|
        ensures s[k] == WildCard || s[k] == WildDrawFour
      {
        CountPositive(s, k);
        assert Count(s, s[k]) <= ExpectedCount(s[k]);
      }
      TwoValued(s, WildCard, WildDrawFour);
    }
  }

  /** The deal takes 7 cards per seat from a deck with a standard count, so
      no card is left in the deck more often than the game owns it. */
  lemma DealBound(players: seq<Player>, shuffled: seq<Card>, rng: Rng, pos: nat, c: Card)
    requires Count(shuffled, c) == ExpectedCount(c)
    ensures Count(DealHands(players, Piles(shuffled, []), rng, pos).piles.deck, c) <= ExpectedCount(c)
  {
    DealConserves(players, Piles(shuffled, []), rng, pos, c);
  }

  /** Every seat of a started game holds 7 cards and the deck 112 - 7n - 1 */
  lemma DealAndFlipSizes(g: GameState, shuffled: seq<Card>, rng: Rng, pos: nat)
    requires |shuffled| == 112
    ensures DealAndFlip(g, shuffled, rng, pos).Begun? ==> |g.players| <= 15
    ensures DealAndFlip(g, shuffled, rng, pos).Begun? ==>
      forall i :: 0 <= i < |g.players| ==> |DealAndFlip(g, shuffled, rng, pos).game.players[i].hand| == 7
    ensures DealAndFlip(g, shuffled, rng, pos).Begun? ==>
      |DealAndFlip(g, shuffled, rng, pos).game.deck| == 112 - 7 * |g.players| - 1
  {
    if DealAndFlip(g, shuffled, rng, pos).Begun? {
      var p := Piles(shuffled, []);
      DealSizes(g.players, p, rng, pos);
      var d := DealHands(g.players, p, rng, pos);
      var f := FlipStarter(d.piles.deck);
      assert f.Flipped?;
      assert DealAndFlip(g, shuffled, rng, pos).game.players == d.seats;
      assert DealAndFlip(g, shuffled, rng, pos).game.deck == f.deck;
    }
  }

  /** Up to fourteen players always get a game from a standard deck: at
      least 14 cards are left after dealing and at most 8 of them can be
      wild. */
  lemma DealAndFlipStarts(g: GameState, shuffled: seq<Card>, rng: Rng, pos: nat)
    requires |shuffled| == 112 && forall c :: Count(shuffled, c) == ExpectedCount(c)
    requires |g.players| <= 14
    ensures DealAndFlip(g, shuffled, rng, pos).Begun?
  {
    DealLeavesNonWild(g.players, shuffled, rng, pos);
  }

  /** Dealing at most 14 hands from a standard deck leaves more than 8
      cards, so not only wild ones */
  lemma DealLeavesNonWild(players: seq<Player>, shuffled: seq<Card>, rng: Rng, pos: nat)
    requires |shuffled| == 112 && forall c :: Count(shuffled, c) == ExpectedCount(c)
    requires |players| <= 14
    ensures var s := DealHands(players, Piles(shuffled, []), rng, pos).piles.deck;
      |s| > 0 && !AllWild(s)
  {
    var p := Piles(shuffled, []);
    var s := DealHands(players, p, rng, pos).piles.deck;
    DealSizes(players, p, rng, pos);
    DealLeavesDiscard(players, p, rng, pos);
    forall c
      ensures Count(s, c) <= ExpectedCount(c)
    {
      DealBound(players, shuffled, rng, pos, c);
    }
    FewWilds(s);
  }


  /** Sixteen players or more empty a 112-card deck while dealing, and the
      first-card loop then throws. */
  lemma DealAndFlipExhausts(g: GameState, shuffled: seq<Card>, rng: Rng, pos: nat)
    requires |shuffled| == 112
    requires |g.players| >= 16
    ensures DealAndFlip(g, shuffled, rng, pos).DeckExhausted?
  {
    DealSizes(g.players, Piles(shuffled, []), rng, pos);
  }

  /** With a 112-card deck, the deal leaves no card for the first-card pop
      exactly when there are sixteen players or more */
  lemma DealAndFlipEmpties(g: GameState, shuffled: seq<Card>, rng: Rng, pos: nat)
    requires |shuffled| == 112
    ensures DealAndFlip(g, shuffled, rng, pos).DeckExhausted? <==> |g.players| >= 16
  {
    var p := Piles(shuffled, []);
    DealSizes(g.players, p, rng, pos);
    DealLeavesDiscard(g.players, p, rng, pos);
  }

  /** A started game holds exactly the cards of the deck it was given, across deck,
      discard pile and hands. */
  lemma DealAndFlipOwns(g: GameState, shuffled: seq<Card>, rng: Rng, pos: nat, c: Card)
    requires DealAndFlip(g, shuffled, rng, pos).Begun?
    ensures Owned(DealAndFlip(g, shuffled, rng, pos).game, c) == Count(shuffled, c)
  {
    DealAndFlipPiles(g, shuffled, rng, pos, c);
    DealOwns(g.players, shuffled, rng, pos, c);
  }

  /** Where the cards of a started game come from: the hands are the dealt
      hands, and the deck and the discard pile split what the deal left */
  lemma DealAndFlipPiles(g: GameState, shuffled: seq<Card>, rng: Rng, pos: nat, c: Card)
    requires DealAndFlip(g, shuffled, rng, pos).Begun?
    ensures var d := DealHands(g.players, Piles(shuffled, []), rng, pos);
      Owned(DealAndFlip(g, shuffled, rng, pos).game, c) == Count(d.piles.deck, c) + HandCount(d.seats, c)
  {
    var d := DealHands(g.players, Piles(shuffled, []), rng, pos);
    FlipConserves(d.piles.deck, c);
  }

  /** Dealing from a fresh deck with no discard pile leaves every card in
      the deck or in a hand */
  lemma DealOwns(players: seq<Player>, shuffled: seq<Card>, rng: Rng, pos: nat, c: Card)
    ensures var d := DealHands(players, Piles(shuffled, []), rng, pos);
      Count(d.piles.deck, c) + HandCount(d.seats, c) == Count(shuffled, c)
  {
    var p := Piles(shuffled, []);
    DealConserves(players, p, rng, pos, c);
    DealLeavesDiscard(players, p, rng, pos);
    assert PileCount(p, c) == Count(shuffled, c);
  }

  /** A started game is well formed */
  lemma DealAndFlipWellFormed(g: GameState, shuffled: seq<Card>, rng: Rng, pos: nat)
    requires DealAndFlip(g, shuffled, rng, pos).Begun?
    ensures WellFormed(DealAndFlip(g, shuffled, rng, pos).game)
  {
  }

  /* ---------------------------------------------------------------------
     createGame with createDeck's deck
     --------------------------------------------------------------------- */

  /** createGame's deck in numbers: 7 cards per seat, 112 - 7n - 1 left */
  lemma CreateGameSizes(g: GameState, rng: Rng)
    ensures CreateGame(g, rng).Begun? ==> |g.players| <= 15
    ensures CreateGame(g, rng).Begun? ==>
      forall i :: 0 <= i < |g.players| ==> |CreateGame(g, rng).game.players[i].hand| == 7
    ensures CreateGame(g, rng).Begun? ==> |CreateGame(g, rng).game.deck| == 112 - 7 * |g.players| - 1
  {
    var cd := CreateDeck(rng, 0);
    DealAndFlipSizes(g, cd.0, rng, cd.1);
  }

  /** createGame starts every room of 2 to 14 players without a deck */
  lemma CreateGameStarts(g: GameState, rng: Rng)
    requires 2 <= |g.players| <= 14 && |g.deck| == 0
    ensures CreateGame(g, rng).Begun?
  {
    var cd := CreateDeck(rng, 0);
    forall c
      ensures Count(cd.0, c) == ExpectedCount(c)
    {
      CreateDeckCounts(rng, 0, c);
    }
    DealAndFlipStarts(g, cd.0, rng, cd.1);
  }

  /** createGame throws for 16 players or more */
  lemma CreateGameExhausts(g: GameState, rng: Rng)
    requires |g.players| >= 16 && |g.deck| == 0
    ensures CreateGame(g, rng).DeckExhausted?
  {
    var cd := CreateDeck(rng, 0);
    DealAndFlipExhausts(g, cd.0, rng, cd.1);
  }

  /** When createGame fails after dealing: the first-card pop throws exactly
      for sixteen players or more, and the first-card loop can run forever
      only with fifteen, when all seven cards left may be wild. */
  lemma CreateGameFailures(g: GameState, rng: Rng)
    ensures CreateGame(g, rng).DeckExhausted? <==> |g.players| >= 16 && |g.deck| == 0
    ensures CreateGame(g, rng).OnlyWildsLeft? ==> |g.players| == 15 && |g.deck| == 0
  {
    if |g.players| >= 2 && |g.deck| == 0 {
      var cd := CreateDeck(rng, 0);
      DealAndFlipEmpties(g, cd.0, rng, cd.1);
      if |g.players| <= 14 {
        CreateGameStarts(g, rng);
      }
    }
  }

  /** A game createGame started holds exactly the 112 cards of a standard
      deck: every card ExpectedCount times, across deck, discard pile and
      hands. */
  lemma CreateGameOwnsStandardDeck(g: GameState, rng: Rng, c: Card)
    ensures CreateGame(g, rng).Begun? ==> Owned(CreateGame(g, rng).game, c) == ExpectedCount(c)
  {
    if CreateGame(g, rng).Begun? {
      var cd := CreateDeck(rng, 0);
      CreateDeckCounts(rng, 0, c);
      DealAndFlipOwns(g, cd.0, rng, cd.1, c);
    }
  }

  /** A game createGame started is well formed */
  lemma CreateGameWellFormed(g: GameState, rng: Rng)
    ensures CreateGame(g, rng).Begun? ==> WellFormed(CreateGame(g, rng).game)
    ensures CreateGame(g, rng).Begun? ==> StackOk(CreateGame(g, rng).game)
  {
    if CreateGame(g, rng).Begun? {
      var cd := CreateDeck(rng, 0);
      DealAndFlipWellFormed(g, cd.0, rng, cd.1);
    }
  }
}

=== FILE: turns.dfy ===
/**
 * `advanceTurn` of server/src/game/gameLogic.ts: move the turn one seat in
 * the current direction, wrapping around the table.
 */
module Turns {
  import opened GameType

  /** The turn moves to the seat `(index + direction + n) mod n` and
      `currentPlayer` follows it; an empty room is left alone. The source's
      `%` truncates towards zero, so the requires asks for a non-negative
      sum (it holds under WellFormed); below 0 the source reads seat -1 and
      throws. */
  function AdvanceTurn(g: GameState): (r: GameState)
    requires |g.players| > 0 ==> g.currentPlayerIndex + g.direction + |g.players| >= 0
    ensures |g.players| == 0 ==> r == g
    ensures |g.players| > 0 ==> 0 <= r.currentPlayerIndex < |g.players|
    ensures |g.players| > 0 ==> r.currentPlayer == g.players[r.currentPlayerIndex].id
    ensures r == g.(currentPlayerIndex := r.currentPlayerIndex, currentPlayer := r.currentPlayer)
  {
    var n := |g.players|;
    if n == 0 then g
    else
      var i := (g.currentPlayerIndex + g.direction + n) % n;
      g.(currentPlayerIndex := i, currentPlayer := g.players[i].id)
  }

  /** The seat after `i` going clockwise (direction 1) */
  function NextSeat(i: nat, n: nat): nat {
    if i + 1 == n then 0 else i + 1
  }

  /** The seat after `i` going counter-clockwise (direction -1) */
  function PrevSeat(i: nat, n: nat): nat
    requires n > 0
  {
    if i == 0 then n - 1 else i - 1
  }

  /** The neighbour of seat `i` in direction `d` (1 or -1) */
  function Neighbour(i: nat, d: int, n: nat): (r: nat)
    requires i < n
    ensures r < n
  {
    if d == 1 then NextSeat(i, n) else PrevSeat(i, n)
  }

  /** The seat `m` seats away from `i` in direction `d` */
  function Hops(i: nat, d: int, n: nat, m: nat): (r: nat)
    requires i < n
    ensures r < n
    decreases m
  {
    if m == 0 then i else Hops(Neighbour(i, d, n), d, n, m - 1)
  }

  /** In a well-formed room the turn moves to the neighbouring seat: the
      next one for direction 1, the previous one for direction -1. */
  lemma AdvanceMovesOneSeat(g: GameState)
    requires WellFormed(g) && |g.players| > 0
    ensures AdvanceTurn(g).currentPlayerIndex == Neighbour(g.currentPlayerIndex, g.direction, |g.players|)
  {
    ModSmall(g.currentPlayerIndex + g.direction + |g.players|, |g.players|);
  }

  /** Around a table of two, two hops in either direction come back to the
      same seat */
  lemma TwoHopsOfTwo(i: nat, d: int)
    requires i < 2
    ensures Hops(i, d, 2, 2) == i
  {
    var j := Neighbour(i, d, 2);
    assert Hops(i, d, 2, 2) == Hops(j, d, 2, 1) == Neighbour(j, d, 2);
  }

  /** advanceTurn keeps the invariant */
  lemma AdvanceKeepsWellFormed(g: GameState)
    requires WellFormed(g)
    ensures WellFormed(AdvanceTurn(g))
  {
  }
}

=== FILE: wrappers.dfy ===
/** The optional-value datatype used for JavaScript's `undefined`/`null` results. */
module Wrappers {

  datatype Option<+T> = None | Some(value: T) {

    /** Returns the value held in Some, or a default if None */
    function GetOr(default: T): T {
      match this
      case Some(v) => v
      case None => default
    }
  }
}
